=== FILE: README.md ===
# CloudX telemetry bookkeeping in Dafny

This project models the deterministic bookkeeping of the CloudX monitoring stack. The
stack ingests machine telemetry, reconciles it into one current snapshot plus a few
bounded histories, raises edge-triggered alerts, and fans the result out to dashboards.
Each piece of code is a pure function over immutable Dafny values. Clock readings,
socket ids and psutil samples arrive as parameters.

| file | module | models |
|---|---|---|
| `window.dfy` | `Window` | JavaScript's `slice(0, n)` / `slice(-n)` after a push or unshift, and `filter` |
| `text.dfy` | `Text` | `substring(0, n)`, ASCII `toUpperCase`/`toLowerCase`, `includes` |
| `option.dfy` | `Optional` | missing fields (`undefined`, `None`), map lookups |
| `alerts.dfy` | `Alerts` | `addAlert` and the three detectors of the `server_stats` handler (process status, disk threshold, RAM hysteresis) |
| `stream_merge.dfy` | `StreamMerge` | the live `kinesis_data` list and the history-fetch merge, which uses JavaScript `Map` semantics |
| `client.dfy` | `Client` | the React dashboard as a reducer: every socket handler, the time filter, the map zoom and the assistant's keyword routing |
| `legacy.dfy` | `Legacy` | the vanilla dashboard's `analytics_update` handler: CPU chart buffer, event rows, uptime split |
| `hub.dfy` | `Hub` | the backend's `globalStats` holder, broadcast, replay on connect, `/health` |
| `agent.dfy` | `Agent` | the agent's process collection, its stable top-10 CPU sort, and the snapshot's shape |
| `producer.dfy` | `Producer` | the producer's strict-greater argmax over processes, and the usage event |

The stateful parts are related by lemmas to independent reference definitions. Each
bounded list is related to a reference "last n" or "first n" of everything inserted.
The alert scans are related to per-entry checks against the previous record. The chart
buffer is related to "the last 21 run starts". The `Map`-based merge is related to "first position, last value". The server's
held value is related to "the last write". The stable sort is related to a strict total
order on (CPU descending, position ascending).

## Model

| member | source | states |
|---|---|---|
| Alerts.AddAlert | analytics-dashboard/frontend/src/App.jsx:104-121 | The new alert comes first and the previous alerts follow in order, cut to 50 in total. The alert is recorded whether or not notifications are enabled; only the toast depends on that setting. |
| Alerts.AddAlertsNewestFirst | analytics-dashboard/frontend/src/App.jsx:113 | Alerts raised in a row end up newest first: the list is the first 50 of the raised alerts reversed, followed by the old list. |
| Alerts.Scan | analytics-dashboard/frontend/src/App.jsx:147-163 | After a `forEach` over the payload, the baseline's keys are the old keys plus the payload's keys. Each entry raises at most one alert. |
| Alerts.ScanRecordsLatest | analytics-dashboard/frontend/src/App.jsx:154-162 | The baseline is always overwritten. Each key holds the value of its last entry in the payload, and keys absent from the payload keep their old value. |
| Alerts.ScanMatchesChecks | analytics-dashboard/frontend/src/App.jsx:147-163 | With distinct keys, the raised alerts are exactly the per-entry checks against the previous baseline, in payload order. |
| Alerts.ScanRaisesOnly | analytics-dashboard/frontend/src/App.jsx:147-163 | Every alert a scan raises is one its check can produce. |
| Alerts.ScanConcat | analytics-dashboard/frontend/src/App.jsx:147-163 | A scan walks the payload left to right: scanning two runs of entries scans the first, then the second from the record the first left. The first run's alerts come first. |
| Alerts.ScanOne | analytics-dashboard/frontend/src/App.jsx:147-163 | One entry is checked against the value recorded for its key, and then its value is recorded. |
| Alerts.Pm2Check | analytics-dashboard/frontend/src/App.jsx:148-153 | An error alert is raised exactly when the previous status was "online" and the new one is not. A success alert is raised exactly when the previous status was truthy, was not "online", and the new one is "online". A first-seen name raises nothing. It also states each alert's title and message. |
| Alerts.Pm2Scan | analytics-dashboard/frontend/src/App.jsx:147-155 | Every name of the payload is recorded. At most one alert is raised per entry, each a critical or a restored alert. |
| Alerts.Pm2ScanSpec | analytics-dashboard/frontend/src/App.jsx:147-155 | Every process name ends up recorded with its last status. With distinct names, the alerts are the per-process checks in order. |
| Alerts.Pm2ClusterFlaps | analytics-dashboard/frontend/src/App.jsx:147-155 | Entries repeating a name are checked against each other. A process recorded online whose instances report "stopped", then "online", raises a critical and a restored alert in one payload. Checking against the previous payload alone would raise one. |
| Alerts.DiskCheck | analytics-dashboard/frontend/src/App.jsx:158-161 | A warning is raised exactly when the recorded usage (0 if none) is at most 85 and the new usage exceeds 85. A drive first seen above 85 therefore alerts. |
| Alerts.DiskScan | analytics-dashboard/frontend/src/App.jsx:157-163 | Every drive of the payload is recorded. At most one warning is raised per entry. |
| Alerts.DiskSustainedHighIsSilent | analytics-dashboard/frontend/src/App.jsx:157-163 | Readings that stay above 85 never raise a second warning. |
| Alerts.DiskFirstSeenHighAlerts | analytics-dashboard/frontend/src/App.jsx:157-163 | A new drive read high, high, 50, high raises exactly two warnings. |
| Alerts.RamStep | analytics-dashboard/frontend/src/App.jsx:165-170 | The RAM alarm fires exactly when the flag is disarmed and usage exceeds 90. The flag is armed afterwards exactly when the alarm fired, or when it was armed and usage did not fall below 85. |
| Alerts.RamHysteresisExample | analytics-dashboard/frontend/src/App.jsx:165-170 | Readings 70, 92, 93, 88, 70, 95 raise exactly two RAM alerts. |
| Alerts.RamAlertsBoundedByDrops | analytics-dashboard/frontend/src/App.jsx:165-170 | Over any run of readings, RAM alerts number at most one plus the number of readings below 85. |
| Client.PointOf | analytics-dashboard/frontend/src/App.jsx:172-179 | A chart point takes the payload's CPU and memory, and the rx/tx of the first network interface. A missing figure, a missing network list or an empty one counts as 0. |
| Client.Detect | analytics-dashboard/frontend/src/App.jsx:147-170 | The three detectors run in order on one payload. The new baseline is the status scan's record, the disk scan's record and the RAM hysteresis flag. The alerts are the status alerts, then the disk alerts, then the RAM alert when the alarm fires. At most one alert is raised per process, per drive, plus one for RAM, and a "RAM Critical" alert is among them exactly when the alarm fires. |
| Client.OnServerStats | analytics-dashboard/frontend/src/App.jsx:143-182 | A `loading` payload changes nothing. Otherwise the snapshot is replaced, the baseline and alert history are updated, and history gains the new point at its end (30 kept). Logs, stream, filter and map state are untouched. |
| Client.OnPm2Log | analytics-dashboard/frontend/src/App.jsx:184-189 | The line is appended (200 kept). An `err` line also puts one error alert in front; its message is the first 80 characters of the text. Nothing else changes. |
| Client.OnStreamRecord | analytics-dashboard/frontend/src/App.jsx:191-193 | The record goes in front of the stream list (100 kept). Nothing else changes. |
| Client.OnConnect | analytics-dashboard/frontend/src/App.jsx:132-135 | The client is marked connected, and an info alert goes in front of the older alerts (50 kept). Nothing else changes. |
| Client.OnConnectError | analytics-dashboard/frontend/src/App.jsx:137-139 | An error alert naming the cause goes in front of the older alerts (50 kept). Nothing else changes. |
| Client.OnDisconnect | analytics-dashboard/frontend/src/App.jsx:141 | Only the connection flag drops. |
| Client.OnProcessCommand | analytics-dashboard/frontend/src/App.jsx:211-216 | A process command puts an info alert, "<action> signal for <name>", in front of the older alerts (50 kept). Nothing else changes. |
| Client.OnHistoryFetched | analytics-dashboard/frontend/src/App.jsx:1129-1152 | A failed fetch, a non-array body, or an item without an id leaves everything unchanged. Otherwise only the stream list changes: it becomes the merge of the fetched items ahead of the held records (see `StreamMerge.MergeSpec`), with distinct sequence numbers and at most 100 entries. |
| Client.OnTimeFilter | analytics-dashboard/frontend/src/App.jsx:285-313 | A blank bound, or an end not after the start, changes nothing. Otherwise the historical view turns on and the filtered list is the chart history restricted to the range. |
| Client.TimeFilterSpec | analytics-dashboard/frontend/src/App.jsx:299-303 | A point is in the filtered list exactly when it is in the history with start ≤ time ≤ end. Order is kept: filtering any split of the history filters each part in place. |
| Client.OnGoLive | analytics-dashboard/frontend/src/App.jsx:822 | The "Live" button only turns the historical view off. |
| Client.ZoomOut | analytics-dashboard/frontend/src/App.jsx:1084 | Zooming out steps down by one, and at zoom 1 or below it gives exactly 1. |
| Client.ZoomIn | analytics-dashboard/frontend/src/App.jsx:1086 | Zooming in steps up by one, and at zoom 21 or above it gives exactly 21. |
| Client.StepBounded | analytics-dashboard/frontend/src/App.jsx:104-193 | Every event keeps each list within its capacity (alerts 50, history 30, logs 200, stream 100, filtered ≤ 30) and keeps the zoom within [1, 21]. |
| Client.RunBounded | analytics-dashboard/frontend/src/App.jsx:104-193 | Any run of events from a bounded state stays bounded. |
| Client.InitialBounded | analytics-dashboard/frontend/src/App.jsx:104-193 | The dashboard starts with empty lists and zoom 13, which is within bounds. |
| Client.Route | analytics-dashboard/frontend/src/App.jsx:218-278 | An empty query gets no answer. Otherwise the first keyword group found in the lower-cased query wins, in the order processes, storage, CPU, memory, network. The overview answer is given exactly when no keyword occurs. |
| Client.RouteIgnoresCase | analytics-dashboard/frontend/src/App.jsx:230 | Routing a query in upper case gives the same topic. |
| Text.ContainsAnyConcat | analytics-dashboard/frontend/src/App.jsx:233-267 | Testing a query against two keyword lists together is testing either list. |
| StreamMerge.OnKinesisData | analytics-dashboard/frontend/src/App.jsx:191-193 | A live record is put in front and the list is cut to 100; it is not checked for duplicates. |
| StreamMerge.MapSet | analytics-dashboard/frontend/src/App.jsx:1143 | `Map.set`: a known key keeps its position and takes the new value; a new key goes at the end. Keys stay distinct. |
| StreamMerge.BuildMap | analytics-dashboard/frontend/src/App.jsx:1143 | `new Map(...).values()` has distinct keys, exactly the input's keys, and is no longer than the input. |
| StreamMerge.BuildMapKeepsLastValue | analytics-dashboard/frontend/src/App.jsx:1143 | Each key's entry is its last occurrence in the input. |
| StreamMerge.BuildMapKeepsFirstPosition | analytics-dashboard/frontend/src/App.jsx:1143 | Keys appear in the order of their first occurrence in the input. |
| StreamMerge.Translate | analytics-dashboard/frontend/src/App.jsx:1135-1140 | A stored item becomes a record whose sequence number is the full id and whose display id is the id's first 8 characters. |
| StreamMerge.TranslateAll | analytics-dashboard/frontend/src/App.jsx:1135-1140 | Items are translated one for one, in order. |
| StreamMerge.OnFetch | analytics-dashboard/frontend/src/App.jsx:1133-1145 | Anything but an array of items with ids leaves the list unchanged. Otherwise the result is the merge of fetched and held records. |
| StreamMerge.MergeSpec | analytics-dashboard/frontend/src/App.jsx:1141-1145 | The merged list has at most 100 entries with distinct sequence numbers, each taken from the fetched or held records. Fetched keys come ahead of keys only the list held. On a clash the held record's value wins. When nothing is cut, every key survives. When something is cut, the merge is the first 100 keys in fetched-then-held first-occurrence order, so the keys that drop out are the ones seen last. |
| Window.AppendAllKeepsMostRecent | analytics-dashboard/frontend/src/App.jsx:172-185 | After any run of appends with `slice(-n)`, the list is exactly the n most recent entries, oldest first. |
| Window.PrependAllKeepsNewest | analytics-dashboard/frontend/src/App.jsx:191-193 | After any run of prepends with `slice(0, n)`, the list holds the newest entries first, then what remains of the old list, n in total. |
| Window.FilterConcat | analytics-dashboard/frontend/src/App.jsx:300-303 | Filtering keeps order: it distributes over concatenation. |
| Window.KeepFirst | analytics-dashboard/frontend/src/App.jsx:1144 | `slice(0, n)` is the prefix of length min(len, n). |
| Window.KeepLast | analytics-dashboard/frontend/src/App.jsx:180 | `slice(-n)` is the last min(len, n) elements, in order. |
| Window.Append | analytics-dashboard/frontend/src/App.jsx:185 | Appending then `slice(-n)` puts the new entry last, after the n-1 most recent old entries. |
| Window.Prepend | analytics-dashboard/frontend/src/App.jsx:192 | Prepending then `slice(0, n)` puts the new entry first, before the n-1 first old entries. |
| Window.Filter | analytics-dashboard/frontend/src/App.jsx:300-303 | `filter` keeps exactly the elements satisfying the test and is no longer than its input. |
| Text.Prefix | analytics-dashboard/frontend/src/App.jsx:187 | `substring(0, n)` is a prefix of the text, of length min(len, n). |
| Text.Upper | analytics-dashboard/frontend/src/App.jsx:150 | `toUpperCase` keeps the length and maps each character on its own: a small letter a-z becomes its capital (32 code points up), and every other character is kept. No small letter is left. |
| Text.UpperIdempotent | analytics-dashboard/frontend/src/App.jsx:150 | Upper-casing an already upper-cased status changes nothing. |
| Text.Lower | analytics-dashboard/frontend/src/App.jsx:230 | `toLowerCase` keeps the length and maps each character on its own: a capital A-Z becomes its small letter (32 code points down), and every other character is kept. No capital is left. |
| Text.LowerIdempotent | analytics-dashboard/frontend/src/App.jsx:230 | Lower-casing an already lower-cased query changes nothing. |
| Legacy.Plot | analytics-dashboard/backend/public/app.js:95-108 | A point whose label repeats the last label leaves the chart unchanged. Otherwise the new point is last, and the chart shifts only when it held more than 20 points. The surviving labels, and the surviving values of a chart whose arrays are parallel, keep their order. The two arrays stay equally long, and a chart of at most 21 points stays that way. |
| Legacy.Shift | analytics-dashboard/backend/public/app.js:102-103 | `shift` on a non-empty array leaves the rest: putting the first element back in front gives the original array, and the array is one shorter. An empty array stays empty. |
| Legacy.PlotAllMatchesReference | analytics-dashboard/backend/public/app.js:98-106 | Whatever samples arrive, the chart is exactly the last 21 samples that start a run of equal labels, with labels and values side by side. |
| Legacy.ChartInvariant | analytics-dashboard/backend/public/app.js:98-106 | A chart started empty always has equally long label and value arrays and at most 21 points, and never shows the same label twice in a row. |
| Legacy.RunStartsHaveNoRepeats | analytics-dashboard/backend/public/app.js:99-100 | Consecutive run starts never share a label. |
| Legacy.Round | analytics-dashboard/backend/public/app.js:75 | `Math.round` gives the integer within half a unit, rounding halves up. |
| Legacy.SecondsPastHour | analytics-dashboard/backend/public/app.js:92 | JavaScript's `% 3600` lies in [0, 3600) for a non-negative uptime and in (-3600, 0] for a negative one. |
| Legacy.SplitUptime | analytics-dashboard/backend/public/app.js:90-93 | For a non-negative uptime: hours ≥ 0, minutes in 0..59, and hours·3600 + minutes·60 ≤ uptime < that + 60. |
| Legacy.ActionClass | analytics-dashboard/backend/public/app.js:128-131 | login, logout and purchase keep their name; every other action is styled as a click. |
| Legacy.RowOf | analytics-dashboard/backend/public/app.js:126-140 | A row shows the event's user and timestamp, styled by its action class. Its text is the action, followed by "on <page>" when the event has a page. |
| Legacy.OnAnalyticsUpdate | analytics-dashboard/backend/public/app.js:71-144 | Without `vm`, the figures and the chart stay as they are. With `vm`, the rounded CPU is shown and plotted. Memory and disk are shown as given (0 when missing), and the uptime since boot is split into hours and minutes. A non-empty events list replaces the rows with one row per event, in order; an empty or missing list leaves them unchanged. |
| Hub.Initial | analytics-dashboard/backend/server.js:59 | The held snapshot starts out absent (`null`) and no client is connected. |
| Hub.Broadcast | analytics-dashboard/backend/server.js:54 | `io.emit` delivers the body to exactly the connected clients. |
| Hub.Handle | analytics-dashboard/backend/server.js:21-83 | `POST /agent_data` and a non-nullish `agent_metrics` replace the snapshot wholesale and deliver it to every connected client, the sender included; the first replies 200. A `null` or missing `agent_metrics` payload throws while being logged, so it stores and sends nothing. A new connection gets exactly one replay when the snapshot is truthy and none otherwise. `pm2_action`, `disconnect` and `/health` keep the snapshot and send nothing, and `/health` reports status "ok". |
| Hub.LastWriterWins | analytics-dashboard/backend/server.js:51-73 | After any sequence of requests, the snapshot is the body of the most recent ingest that was stored (nullish `agent_metrics` payloads are not), or the starting value if there was none. |
| Hub.ConnectReplaysLastWrite | analytics-dashboard/backend/server.js:61-67 | A client connecting after any history receives the most recent stored ingest exactly when it was truthy, and nothing otherwise. |
| Agent.Collect | cloudx_agent/agent.py:22-33 | The listed processes are kept, in order, and only they: a single reading gives its process when listed and nothing otherwise, and with `CollectConcat` this fixes order and multiplicity. Processes that ended while `process_iter` read them are dropped. |
| Agent.CollectConcat | cloudx_agent/agent.py:23-33 | Dropping is local: a vanished process does not affect the rest of the collection. |
| Agent.SortEntriesOrdered | cloudx_agent/agent.py:36 | The sort yields higher CPU first and equal CPU in collection order, as Python's stable `sorted(reverse=True)` does. |
| Agent.SortEntriesKeepsProcs | cloudx_agent/agent.py:36 | The sort only rearranges: every process appears as often as it was collected. |
| Agent.SelectTopIsSubMultiset | cloudx_agent/agent.py:36 | The top-ten slice shows no process more often than it was collected. |
| Agent.SelectTop | cloudx_agent/agent.py:36 | The selection has min(10, n) distinct positions, each naming the collected process there. They are in non-increasing CPU order with ties in collection order. Every process left out comes after every selected one in that order. |
| Agent.TopProcesses | cloudx_agent/agent.py:36 | The list is the selected processes in selection order: min(10, n) collected processes in non-increasing CPU order, ties in collection order. No process appears more often than it was collected. A process left out uses no more CPU than any process shown. |
| Agent.GetSystemStats | cloudx_agent/agent.py:14-78 | A process whose memory information is unreadable makes the snapshot fail, and only that does. Otherwise the snapshot has exactly one storage entry, drive "/", and exactly one network entry, "primary" and "up". The drive's total, used, percentage and free figures are the disk readings, and the interface's rx and tx are the received and sent counters. Its CPU and memory figures are the readings. Its processes are exactly the top ten of the listed ones. |
| Producer.Scanned | cloudx_agent/kinesis_producer.py:25-31 | The scan compares the processes before the first unreadable one. |
| Producer.ScanStopsAtUnreadable | cloudx_agent/kinesis_producer.py:25-31 | An exception mid-scan keeps the best found so far; nothing after it is compared. |
| Producer.TopProcess | cloudx_agent/kinesis_producer.py:22-31 | The chosen CPU is at least every scanned CPU. The result is ("System", 0) exactly when no scanned process exceeds 0%. Otherwise it is the earliest scanned process with the maximum CPU. |
| Producer.GetRealTelemetry | cloudx_agent/kinesis_producer.py:16-48 | The event's user is the host and its action is always "USAGE_REPORT". Its page names the chosen process and that process's CPU. The chosen process is the default ("System", 0) exactly when no scanned process exceeds 0%, and otherwise the earliest scanned process with the maximum CPU. The event carries the CPU, memory percentage and memory-used readings unchanged. |

## Left out

- Rendering: JSX, Chart.js and recharts drawing, toasts, animations, themes, map iframes, geolocation, and DOM details. Only the resulting list contents are modelled.
- Wall-clock time: `Date.now`, `toLocaleTimeString`, ISO timestamps and alert ids are abstract parameters. Chart-point times are integers. The chart point's `time` is the instant the point was taken.
- Number formatting: `formatBytes`, `toFixed`, `parseFloat`, and Python's float-to-text are left out. Alert messages that embed a number carry the number itself (`Figure(prefix, percent)`). The producer's text is built through a rendering parameter `show`, so the int `0` of the default printing as "0" is not distinguished.
- Rounding of memory, disk and network sizes in the agent (`round(x / 1024**3, 2)`): the figures are passed through as given.
- NaN: a payload percentage that is not a number is not modelled. The time filter models an unparsable bound as `NotADate`, which makes both of its comparisons false.
- Case mapping is ASCII-only; JavaScript's full Unicode `toUpperCase`/`toLowerCase` is not modelled.
- The assistant's answer text and its 1.5-second delay are left out; only the choice of topic is modelled.
- Client.OnTimeFilter: the source does not compare the instant a point was taken. It rebuilds one from the point's `toLocaleTimeString` label, using today's date and the current milliseconds. In a 12-hour locale the label ends in "AM"/"PM", the rebuild is NaN, and no point ever matches. The model compares the instant the point was taken, which amounts to assuming a 24-hour locale, points from the same day, and second resolution.
- Client.Route: the query is taken as already trimmed, and a query of only spaces counts as empty.
- Legacy.SplitUptime: the split is characterised only for a non-negative uptime; a boot time in the future (negative uptime) is computed but not described.
- Hub.Handle: the socket ids, connection and disconnection come from socket.io; the model keeps the connected set itself.
- The DynamoDB scan behind `/api/stream-data`, the simulated `kinesis_data` generator (`Math.random`), static and SPA file serving, AWS and boto3 calls, `requests.post`, psutil sampling, and both Python `main` loops with their sleeps are external I/O.
- Concurrency and timing between socket handlers, React's batching of `setState`, and the socket effect being re-created when notifications are toggled are not modelled. Each event is one atomic step.
- Agent.GetSystemStats: `process_iter` fills a denied attribute with `None` rather than raising, so the loop's `except` clause never runs. A `None` memory reading is modelled as a failed snapshot. A `None` CPU reading, on which the sort raises once it is compared, is not modelled: every listed process has a number as its CPU. The producer models a `None` CPU as `Unreadable`, which ends its scan.
- The hard-coded admin login is not modelled.
- The server keeps only the latest snapshot; it has no history buffer to replay. Live `kinesis_data` records are prepended without a duplicate check. Only the history fetch removes duplicates.
- Hub.Handle: a nullish `agent_metrics` payload is modelled as a rejected event. What the runtime does with the uncaught `TypeError` afterwards, which may end the server process, is not modelled.
- Text.Prefix: counts Unicode characters. JavaScript's `substring(0, 80)` (the log preview) and `substring(0, 8)` (the short stream id) count UTF-16 code units and can cut a surrogate pair in half; that encoding detail is not modelled.
- Client.OnServerStats: a malformed entry can make the handler throw part-way. One example is a process entry without `status` whose previous status was online: `p.status.toUpperCase()` throws. The snapshot and the alerts queued before that point still take effect, and the remaining checks are skipped. The model takes every entry as well-formed.
- Alerts.Pm2Check: the recorded statuses live in a plain object, so a process named after an `Object.prototype` member (`constructor`, `__proto__`) reads an inherited value instead of "unseen". The model's maps treat every name as unseen until recorded.

=== FILE: agent.dfy ===
/** The host agent's snapshot (cloudx_agent/agent.py, `get_system_stats`): the process
    list is collected, sorted by CPU with Python's stable `sorted(..., reverse=True)`,
    and cut to the top ten; storage and network are one fixed-shape entry each. */
module Agent {
  import opened Window
  import opened Optional

  /** One process as reported: pid, name, CPU percent and resident memory in MB. */
  datatype Proc = Proc(pid: int, name: string, cpu: real, memMb: real)

  /** One process as `process_iter` yields it. `Vanished` is a process that ended while
      being read, which `process_iter` itself drops. `NoMemoryInfo` is one whose
      `memory_info` came back `None` (access denied): reading `.rss` of it raises an
      `AttributeError` that the loop's `except` clause does not catch. */
  datatype Reading = Listed(proc: Proc) | Vanished | NoMemoryInfo

  const TopCount: nat := 10

  /** The collection loop over the processes `process_iter` yields: the listed ones are
      kept in order. (A `NoMemoryInfo` reading aborts the whole snapshot instead, see
      `GetSystemStats`.) */
  function Collect(readings: seq<Reading>): (r: seq<Proc>)
    ensures |r| <= |readings|
    ensures forall i :: 0 <= i < |r| ==> Listed(r[i]) in readings
    ensures forall i :: 0 <= i < |readings| && readings[i].Listed? ==> readings[i].proc in r
    ensures |readings| == 1 ==> r == (if readings[0].Listed? then [readings[0].proc] else [])
  {
    if |readings| == 0 then []
    else
      var rest := Collect(readings[1..]);
      assert forall i :: 0 < i < |readings| ==> readings[i] == readings[1..][i - 1];
      match readings[0]
      case Listed(p) => [p] + rest
      case _ => rest
  }

  /** Skipping is local: collecting two runs of readings concatenates their results. */
  lemma {:induction false} CollectConcat(a: seq<Reading>, b: seq<Reading>)
    ensures Collect(a + b) == Collect(a) + Collect(b)
  {
    if |a| > 0 {
      assert (a + b)[1..] == a[1..] + b;
      CollectConcat(a[1..], b);
    } else {
      assert a + b == b;
    }
  }

  // ---------------------------------------------------------------- stable sort

  /** A process with its position in the collected list. */
  datatype Entry = Entry(index: nat, proc: Proc)

  /** The order `sorted(key=cpu, reverse=True)` produces: higher CPU first, and equal
      CPU in collection order (Python's sort is stable, also when reversed). */
  predicate Before(a: Entry, b: Entry) {
    a.proc.cpu > b.proc.cpu || (a.proc.cpu == b.proc.cpu && a.index < b.index)
  }

  predicate Ordered(s: seq<Entry>) {
    forall i, j :: 0 <= i < j < |s| ==> Before(s[i], s[j])
  }

  function Number(procs: seq<Proc>): (r: seq<Entry>)
    ensures |r| == |procs|
    ensures forall i :: 0 <= i < |r| ==> r[i] == Entry(i, procs[i])
  {
    seq(|procs|, i requires 0 <= i < |procs| => Entry(i, procs[i]))
  }

  /** Insert an entry after every entry that comes before it. */
  function Insert(x: Entry, s: seq<Entry>): (r: seq<Entry>)
    ensures multiset(r) == multiset(s) + multiset{x}
    ensures |r| == |s| + 1
  {
    if |s| == 0 then [x]
    else if Before(x, s[0]) then [x] + s
    else
      assert s == [s[0]] + s[1..];
      [s[0]] + Insert(x, s[1..])
  }

  lemma OrderedCons(a: Entry, t: seq<Entry>)
    requires Ordered(t)
    requires forall k :: 0 <= k < |t| ==> Before(a, t[k])
    ensures Ordered([a] + t)
  {
    forall i, j | 0 <= i < j < |[a] + t|
      ensures Before(([a] + t)[i], ([a] + t)[j])
    {
      if i > 0 {
        assert ([a] + t)[i] == t[i - 1] && ([a] + t)[j] == t[j - 1];
      }
    }
  }

  /** Inserting an entry collected after all of `s` keeps `s` ordered. */
  lemma {:induction false} InsertOrdered(x: Entry, s: seq<Entry>)
    requires Ordered(s)
    requires forall i :: 0 <= i < |s| ==> s[i].index < x.index
    ensures Ordered(Insert(x, s))
  {
    if |s| == 0 {
    } else if Before(x, s[0]) {
      forall j | 0 <= j < |s| ensures Before(x, s[j]) {
        if j > 0 {
          assert Before(s[0], s[j]);
        }
      }
      OrderedCons(x, s);
    } else {
      var rest := s[1..];
      assert Ordered(rest) by {
        forall i, j | 0 <= i < j < |rest| ensures Before(rest[i], rest[j]) {
          assert rest[i] == s[i + 1] && rest[j] == s[j + 1];
        }
      }
      InsertOrdered(x, rest);
      var tail := Insert(x, rest);
      forall k | 0 <= k < |tail| ensures Before(s[0], tail[k]) {
        var e := tail[k];
        assert e in multiset(tail);
        if e in multiset(rest) {
          var m :| 0 <= m < |rest| && rest[m] == e;
          assert e == s[m + 1];
        }
      }
      OrderedCons(s[0], tail);
    }
  }

  /** Insertion sort over the entries in collection order. */
  function SortEntries(s: seq<Entry>): (r: seq<Entry>)
    ensures multiset(r) == multiset(s)
    ensures |r| == |s|
    decreases |s|
  {
    if |s| == 0 then []
    else
      var init := s[..|s| - 1];
      assert s == init + [s[|s| - 1]];
      Insert(s[|s| - 1], SortEntries(init))
  }

  /** Entries numbered in increasing order come out in the stable descending order. */
  lemma {:induction false} SortEntriesOrdered(s: seq<Entry>)
    requires forall i, j :: 0 <= i < j < |s| ==> s[i].index < s[j].index
    ensures Ordered(SortEntries(s))
    decreases |s|
  {
    if |s| > 0 {
      var init := s[..|s| - 1];
      var last := s[|s| - 1];
      SortEntriesOrdered(init);
      var sorted := SortEntries(init);
      forall i | 0 <= i < |sorted| ensures sorted[i].index < last.index {
        assert sorted[i] in multiset(init);
        var m :| 0 <= m < |init| && init[m] == sorted[i];
      }
      InsertOrdered(last, sorted);
    }
  }

  /** The processes of a run of entries, in order. */
  function ProcsOf(es: seq<Entry>): (r: seq<Proc>)
    ensures |r| == |es| && forall i :: 0 <= i < |es| ==> r[i] == es[i].proc
  {
    seq(|es|, i requires 0 <= i < |es| => es[i].proc)
  }

  lemma ProcsOfConcat(a: seq<Entry>, b: seq<Entry>)
    ensures ProcsOf(a + b) == ProcsOf(a) + ProcsOf(b)
  {
  }

  /** Inserting an entry adds exactly its process to the processes. */
  lemma {:induction false} InsertKeepsProcs(x: Entry, s: seq<Entry>)
    ensures multiset(ProcsOf(Insert(x, s))) == multiset(ProcsOf(s)) + multiset{x.proc}
  {
    if |s| > 0 && !Before(x, s[0]) {
      assert s == [s[0]] + s[1..];
      InsertKeepsProcs(x, s[1..]);
      ProcsOfConcat([s[0]], Insert(x, s[1..]));
      ProcsOfConcat([s[0]], s[1..]);
    } else if |s| > 0 {
      ProcsOfConcat([x], s);
    }
  }

  /** The sort only rearranges: it shows every process as often as it was collected. */
  lemma {:induction false} SortEntriesKeepsProcs(s: seq<Entry>)
    ensures multiset(ProcsOf(SortEntries(s))) == multiset(ProcsOf(s))
    decreases |s|
  {
    if |s| > 0 {
      var init, last := s[..|s| - 1], s[|s| - 1];
      assert s == init + [last];
      SortEntriesKeepsProcs(init);
      InsertKeepsProcs(last, SortEntries(init));
      ProcsOfConcat(init, [last]);
    }
  }

  /** A rearrangement of the numbered list names each process at its own position. */
  lemma EntriesNameTheirProcess(procs: seq<Proc>, sorted: seq<Entry>)
    requires multiset(sorted) == multiset(Number(procs))
    ensures forall i :: 0 <= i < |sorted| ==> sorted[i].index < |procs| && procs[sorted[i].index] == sorted[i].proc
  {
    var numbered := Number(procs);
    forall i | 0 <= i < |sorted| ensures sorted[i].index < |procs| && procs[sorted[i].index] == sorted[i].proc {
      assert sorted[i] in multiset(numbered);
      var m :| 0 <= m < |numbered| && numbered[m] == sorted[i];
    }
  }

  /** Every process cut off by the top-ten slice comes after every selected one. */
  lemma LeftOutComesAfter(procs: seq<Proc>, sorted: seq<Entry>, r: seq<Entry>)
    requires multiset(sorted) == multiset(Number(procs))
    requires Ordered(sorted)
    requires r <= sorted
    ensures forall k :: 0 <= k < |procs| && (forall i :: 0 <= i < |r| ==> r[i].index != k) ==>
              forall i :: 0 <= i < |r| ==> Before(r[i], Entry(k, procs[k]))
  {
    var numbered := Number(procs);
    forall k | 0 <= k < |procs| && (forall i :: 0 <= i < |r| ==> r[i].index != k)
      ensures forall i :: 0 <= i < |r| ==> Before(r[i], Entry(k, procs[k]))
    {
      assert numbered[k] in multiset(sorted);
      var m :| 0 <= m < |sorted| && sorted[m] == Entry(k, procs[k]);
      assert m >= |r|;
      forall i | 0 <= i < |r| ensures Before(r[i], Entry(k, procs[k])) {
        assert r[i] == sorted[i];
      }
    }
  }

  /** `sorted(processes, key=cpu, reverse=True)[:10]`, with each process's position in
      the collected list. The result holds min(10, n) distinct positions, each naming
      the collected process at that position, in non-increasing CPU order with ties in
      collection order; every process left out comes after every selected one in that
      order, so its CPU is at most the smallest selected CPU. */
  function SelectTop(procs: seq<Proc>): (r: seq<Entry>)
    ensures |r| == Min(|procs|, TopCount)
    ensures forall i :: 0 <= i < |r| ==> r[i].index < |procs| && procs[r[i].index] == r[i].proc
    ensures Ordered(r)
    ensures forall i, j :: 0 <= i < j < |r| ==> r[i].index != r[j].index && r[i].proc.cpu >= r[j].proc.cpu
    ensures forall k :: 0 <= k < |procs| && (forall i :: 0 <= i < |r| ==> r[i].index != k) ==>
              forall i :: 0 <= i < |r| ==> Before(r[i], Entry(k, procs[k]))
  {
    var numbered := Number(procs);
    var sorted := SortEntries(numbered);
    SortEntriesOrdered(numbered);
    EntriesNameTheirProcess(procs, sorted);
    var r := KeepFirst(sorted, TopCount);
    LeftOutComesAfter(procs, sorted, r);
    assert forall i :: 0 <= i < |r| ==> r[i] == sorted[i];
    r
  }

  /** The selection shows no process more often than it was collected. */
  lemma SelectTopIsSubMultiset(procs: seq<Proc>)
    ensures multiset(ProcsOf(SelectTop(procs))) <= multiset(procs)
  {
    var numbered := Number(procs);
    var sorted := SortEntries(numbered);
    SortEntriesKeepsProcs(numbered);
    assert ProcsOf(numbered) == procs;
    var top := SelectTop(procs);
    assert top == KeepFirst(sorted, TopCount);
    assert sorted == top + sorted[|top|..];
    ProcsOfConcat(top, sorted[|top|..]);
  }

  /** The process list of the snapshot: the selected processes in selection order, so
      ties keep collection order. It takes each process at most as often as it was
      collected, and a collected process missing from it uses no more CPU than any
      process shown. */
  function TopProcesses(procs: seq<Proc>): (r: seq<Proc>)
    ensures |r| == Min(|procs|, TopCount)
    ensures r == ProcsOf(SelectTop(procs))
    ensures multiset(r) <= multiset(procs)
    ensures forall i, j :: 0 <= i < j < |r| ==> r[i].cpu >= r[j].cpu
    ensures forall i :: 0 <= i < |r| ==> r[i] in procs
    ensures forall k :: 0 <= k < |procs| && procs[k] !in r ==>
              forall i :: 0 <= i < |r| ==> r[i].cpu >= procs[k].cpu
  {
    var top := SelectTop(procs);
    var r := ProcsOf(top);
    SelectTopIsSubMultiset(procs);
    forall k | 0 <= k < |procs| && procs[k] !in r
      ensures forall i :: 0 <= i < |r| ==> r[i].cpu >= procs[k].cpu
    {
      forall i | 0 <= i < |top| ensures top[i].index != k {
        assert r[i] == top[i].proc;
      }
      assert forall i :: 0 <= i < |top| ==> Before(top[i], Entry(k, procs[k]));
    }
    r
  }

  // ---------------------------------------------------------------- the snapshot

  datatype Drive = Drive(drive: string, total: real, used: real, percentage: real, free: real)
  datatype Iface = Iface(iface: string, rx: real, tx: real, operstate: string)

  /** The machine readings the snapshot is built from (psutil), taken as given. */
  datatype Readings = Readings(cpuUsage: real, memoryPercent: real,
                               diskTotal: real, diskUsed: real, diskPercent: real, diskFree: real,
                               received: real, sent: real, processes: seq<Reading>)

  datatype Snapshot = Snapshot(cpuUsage: real, memoryPercent: real, storage: seq<Drive>,
                               network: seq<Iface>, processes: seq<Proc>)

  /** `get_system_stats`: one root drive, one interface reported as up, and the top ten
      of the listed processes. A process without memory information makes the call
      raise (`None` when the snapshot fails); the main loop then sends nothing. */
  function GetSystemStats(m: Readings): (s: Option<Snapshot>)
    ensures s.None? <==> NoMemoryInfo in m.processes
    ensures s.Some? ==> s.value.storage == [Drive("/", m.diskTotal, m.diskUsed, m.diskPercent, m.diskFree)]
    ensures s.Some? ==> s.value.network == [Iface("primary", m.received, m.sent, "up")]
    ensures s.Some? ==> s.value.processes == TopProcesses(Collect(m.processes))
    ensures s.Some? ==> |s.value.processes| == Min(|Collect(m.processes)|, TopCount)
    ensures s.Some? ==> forall i :: 0 <= i < |s.value.processes| ==> Listed(s.value.processes[i]) in m.processes
    ensures s.Some? ==> s.value.cpuUsage == m.cpuUsage && s.value.memoryPercent == m.memoryPercent
  {
    if NoMemoryInfo in m.processes then None
    else
      Some(Snapshot(m.cpuUsage, m.memoryPercent,
                    [Drive("/", m.diskTotal, m.diskUsed, m.diskPercent, m.diskFree)],
                    [Iface("primary", m.received, m.sent, "up")],
                    TopProcesses(Collect(m.processes))))
  }
}

=== FILE: alerts.dfy ===
/** Edge-triggered alert detection of the React dashboard's `server_stats` handler and
    the `addAlert` helper (analytics-dashboard/frontend/src/App.jsx). Each detector is a
    pure function of the recorded previous value and the new reading; the recorded values
    live in a `Baseline` (the component's `lastStateRef`). */
module Alerts {
  import opened Optional
  import opened Window
  import Text

  datatype Severity = Info | Success | Warning | Error

  /** An alert's description: plain text, or a text followed by a percentage figure
      (`Usage at 93%`); turning the number into digits is left to the renderer. */
  datatype Message = Plain(text: string) | Figure(prefix: string, percent: real)

  /** One entry of the alert history; `at` stands for the `Date.now()` id and timestamp. */
  datatype Alert = Alert(severity: Severity, title: string, message: Message, at: int)

  /** Previous values the detectors compare against: status per process name, usage
      per drive, and whether the RAM alarm is armed-and-fired. */
  datatype Baseline = Baseline(pm2: map<string, string>, storage: map<string, real>, ram: bool)

  const InitialBaseline := Baseline(map[], map[], false)

  const AlertCapacity: nat := 50
  const DiskThreshold: real := 85.0
  const RamHigh: real := 90.0
  const RamLow: real := 85.0

  // ---------------------------------------------------------------- alert history

  /** `addAlert`: the new alert goes in front and the history keeps its 50 newest
      entries. The entry is recorded whatever the notification setting; only the toast
      depends on it, and toasts are not part of this model. */
  function AddAlert(alerts: seq<Alert>, a: Alert): (r: seq<Alert>)
    ensures |r| == Min(|alerts| + 1, AlertCapacity)
    ensures r[0] == a
    ensures r[1..] == KeepFirst(alerts, AlertCapacity - 1)
  {
    Prepend(a, alerts, AlertCapacity)
  }

  /** `addAlert` called once per element of `raised`, in order. */
  function AddAlerts(alerts: seq<Alert>, raised: seq<Alert>): seq<Alert>
  {
    PrependAll(alerts, raised, AlertCapacity)
  }

  /** Raising several alerts in a row leaves the newest first: the history is the
      raised alerts in reverse order ahead of the old history, cut at 50. */
  lemma AddAlertsNewestFirst(alerts: seq<Alert>, raised: seq<Alert>)
    requires |alerts| <= AlertCapacity
    ensures AddAlerts(alerts, raised) == KeepFirst(Reverse(raised) + alerts, AlertCapacity)
    ensures |AddAlerts(alerts, raised)| == Min(|raised| + |alerts|, AlertCapacity)
  {
    PrependAllKeepsNewest(alerts, raised, AlertCapacity);
  }

  // ---------------------------------------------------------------- check-then-record scans

  /** The keys named by a run of entries. */
  function KeysOf<E>(es: seq<E>, key: E -> string): (ks: set<string>)
    ensures forall i :: 0 <= i < |es| ==> key(es[i]) in ks
    ensures forall k :: k in ks ==> exists i :: 0 <= i < |es| && key(es[i]) == k
    decreases |es|
  {
    if |es| == 0 then {} else {key(es[0])} + KeysOf(es[1..], key)
  }

  /** Entry `i` is the last one carrying its key. */
  predicate LastWithKey<E>(es: seq<E>, key: E -> string, i: int)
    requires 0 <= i < |es|
  {
    forall j :: i < j < |es| ==> key(es[j]) != key(es[i])
  }

  /** The shape of both `forEach` loops of the `server_stats` handler: each entry is
      checked against the value recorded for its key (`None` when unseen), then the
      record is overwritten with the entry's value. Returns the final record and the
      alerts raised, in the order they are raised. */
  function Scan<E, V>(seen: map<string, V>, es: seq<E>, key: E -> string, val: E -> V,
                      check: (Option<V>, E) -> Option<Alert>): (r: (map<string, V>, seq<Alert>))
    ensures r.0.Keys == seen.Keys + KeysOf(es, key)
    ensures |r.1| <= |es|
    decreases |es|
  {
    if |es| == 0 then (seen, [])
    else
      var e := es[0];
      var raised := check(Lookup(seen, key(e)), e);
      var rest := Scan(seen[key(e) := val(e)], es[1..], key, val, check);
      (rest.0, raised.ToSeq() + rest.1)
  }

  /** After a scan the record holds, for every key the payload names, the value of the
      LAST entry with that key, and is unchanged for every other key. */
  lemma {:induction false} ScanRecordsLatest<E, V>(seen: map<string, V>, es: seq<E>, key: E -> string, val: E -> V,
                                                   check: (Option<V>, E) -> Option<Alert>)
    ensures forall k :: k in seen && k !in KeysOf(es, key) ==> Scan(seen, es, key, val, check).0[k] == seen[k]
    ensures forall i :: 0 <= i < |es| && LastWithKey(es, key, i) ==> Scan(seen, es, key, val, check).0[key(es[i])] == val(es[i])
    decreases |es|
  {
    if |es| > 0 {
      var e := es[0];
      var seen' := seen[key(e) := val(e)];
      var r := Scan(seen, es, key, val, check);
      ScanRecordsLatest(seen', es[1..], key, val, check);
      assert r.0 == Scan(seen', es[1..], key, val, check).0;
      forall i | 0 <= i < |es| && LastWithKey(es, key, i)
        ensures r.0[key(es[i])] == val(es[i])
      {
        if i > 0 {
          assert es[i] == es[1..][i - 1];
          assert LastWithKey(es[1..], key, i - 1) by {
            forall j | i - 1 < j < |es[1..]|
              ensures key(es[1..][j]) != key(es[1..][i - 1])
            {
              assert es[1..][j] == es[j + 1];
            }
          }
        } else {
          assert forall j :: 0 <= j < |es[1..]| ==> key(es[1..][j]) != key(e) by {
            forall j | 0 <= j < |es[1..]|
              ensures key(es[1..][j]) != key(e)
            {
              assert es[1..][j] == es[j + 1];
            }
          }
          assert key(e) !in KeysOf(es[1..], key);
        }
      }
    }
  }

  /** Reference definition: every entry checked against the record as it stood BEFORE
      the payload, ignoring the updates made by earlier entries of the same payload. */
  function Checks<E, V>(seen: map<string, V>, es: seq<E>, key: E -> string,
                        check: (Option<V>, E) -> Option<Alert>): seq<Alert>
    decreases |es|
  {
    if |es| == 0 then []
    else check(Lookup(seen, key(es[0])), es[0]).ToSeq() + Checks(seen, es[1..], key, check)
  }

  predicate DistinctKeys<E>(es: seq<E>, key: E -> string) {
    forall i, j :: 0 <= i < j < |es| ==> key(es[i]) != key(es[j])
  }

  lemma {:induction false} ChecksIgnoreOtherKeys<E, V>(seen: map<string, V>, k: string, v: V, es: seq<E>,
                                                       key: E -> string, check: (Option<V>, E) -> Option<Alert>)
    requires k !in KeysOf(es, key)
    ensures Checks(seen[k := v], es, key, check) == Checks(seen, es, key, check)
    decreases |es|
  {
    if |es| > 0 {
      assert Lookup(seen[k := v], key(es[0])) == Lookup(seen, key(es[0]));
      ChecksIgnoreOtherKeys(seen, k, v, es[1..], key, check);
    }
  }

  /** When a payload names each key once, the scan raises exactly the per-entry checks
      against the previous record. */
  lemma {:induction false} ScanMatchesChecks<E, V>(seen: map<string, V>, es: seq<E>, key: E -> string, val: E -> V,
                                                   check: (Option<V>, E) -> Option<Alert>)
    requires DistinctKeys(es, key)
    ensures Scan(seen, es, key, val, check).1 == Checks(seen, es, key, check)
    decreases |es|
  {
    if |es| > 0 {
      var e := es[0];
      assert forall i :: 0 <= i < |es[1..]| ==> es[1..][i] == es[i + 1];
      assert forall j :: 0 <= j < |es[1..]| ==> key(es[1..][j]) != key(e);
      assert key(e) !in KeysOf(es[1..], key);
      ScanMatchesChecks(seen[key(e) := val(e)], es[1..], key, val, check);
      ChecksIgnoreOtherKeys(seen, key(e), val(e), es[1..], key, check);
    }
  }

  /** Whatever every single check can raise, the scan raises nothing else. */
  lemma {:induction false} ScanRaisesOnly<E, V>(seen: map<string, V>, es: seq<E>, key: E -> string, val: E -> V,
                                                check: (Option<V>, E) -> Option<Alert>, allowed: Alert -> bool)
    requires forall prev, e :: check(prev, e).Some? ==> allowed(check(prev, e).value)
    ensures forall k :: 0 <= k < |Scan(seen, es, key, val, check).1| ==> allowed(Scan(seen, es, key, val, check).1[k])
    decreases |es|
  {
    if |es| > 0 {
      ScanRaisesOnly(seen[key(es[0]) := val(es[0])], es[1..], key, val, check, allowed);
    }
  }

  /** A scan is a left-to-right walk: scanning `a + b` scans `a`, then scans `b` from
      the record `a` left behind, and raises `a`'s alerts before `b`'s. Together with
      `ScanOne` this gives the result of any payload, repeated keys included. */
  lemma {:induction false} ScanConcat<E, V>(seen: map<string, V>, a: seq<E>, b: seq<E>, key: E -> string, val: E -> V,
                                            check: (Option<V>, E) -> Option<Alert>)
    ensures var first := Scan(seen, a, key, val, check);
            var second := Scan(first.0, b, key, val, check);
            Scan(seen, a + b, key, val, check) == (second.0, first.1 + second.1)
    decreases |a|
  {
    if |a| == 0 {
      assert a + b == b;
      var second := Scan(seen, b, key, val, check);
      assert [] + second.1 == second.1;
    } else {
      var e := a[0];
      assert (a + b)[0] == e;
      assert (a + b)[1..] == a[1..] + b;
      var seen' := seen[key(e) := val(e)];
      ScanConcat(seen', a[1..], b, key, val, check);
      var raised := check(Lookup(seen, key(e)), e).ToSeq();
      var first' := Scan(seen', a[1..], key, val, check);
      var second := Scan(first'.0, b, key, val, check);
      assert raised + (first'.1 + second.1) == (raised + first'.1) + second.1;
    }
  }

  /** Scanning one entry: it is checked against the record, then recorded. */
  lemma ScanOne<E, V>(seen: map<string, V>, e: E, key: E -> string, val: E -> V, check: (Option<V>, E) -> Option<Alert>)
    ensures Scan(seen, [e], key, val, check) == (seen[key(e) := val(e)], check(Lookup(seen, key(e)), e).ToSeq())
  {
    var seen' := seen[key(e) := val(e)];
    assert [e][1..] == [];
    assert Scan(seen', [e][1..], key, val, check) == (seen', []);
    var t := check(Lookup(seen, key(e)), e).ToSeq();
    assert t + [] == t;
  }

  // ---------------------------------------------------------------- process status

  datatype Pm2Proc = Pm2Proc(name: string, status: string)

  function Pm2Name(p: Pm2Proc): string { p.name }
  function Pm2Status(p: Pm2Proc): string { p.status }

  /** The alert for one process entry, given the status recorded for its name
      (`None` when the name has not been seen). A recorded empty status is falsy in
      JavaScript and so never counts as a previous non-online state. */
  function Pm2Check(prev: Option<string>, p: Pm2Proc, now: int): (r: Option<Alert>)
    ensures prev.None? ==> r.None?
    ensures r.Some? && r.value.severity == Error <==> prev == Some("online") && p.status != "online"
    ensures r.Some? && r.value.severity == Success
        <==> prev.Some? && prev.value != "" && prev.value != "online" && p.status == "online"
    ensures r.Some? ==> r.value.severity == Error || r.value.severity == Success
    ensures r.Some? && r.value.severity == Error ==>
      r.value == Alert(Error, "Service Critical: " + p.name, Plain("State changed to " + Text.Upper(p.status)), now)
    ensures r.Some? && r.value.severity == Success ==>
      r.value == Alert(Success, "Service Restored: " + p.name, Plain("Process is back online."), now)
  {
    if prev == Some("online") && p.status != "online" then
      Some(Alert(Error, "Service Critical: " + p.name, Plain("State changed to " + Text.Upper(p.status)), now))
    else if prev.Some? && prev.value != "" && prev.value != "online" && p.status == "online" then
      Some(Alert(Success, "Service Restored: " + p.name, Plain("Process is back online."), now))
    else
      None
  }

  function Pm2Checker(now: int): (Option<string>, Pm2Proc) -> Option<Alert> {
    (prev, p) => Pm2Check(prev, p, now)
  }

  /** The `data.pm2.forEach` loop: every name of the payload is recorded, and at most
      one alert is raised per entry, each a critical or a restored alert. */
  function Pm2Scan(seen: map<string, string>, procs: seq<Pm2Proc>, now: int): (r: (map<string, string>, seq<Alert>))
    ensures r.0.Keys == seen.Keys + KeysOf(procs, Pm2Name)
    ensures |r.1| <= |procs|
    ensures forall k :: 0 <= k < |r.1| ==> r.1[k].severity == Error || r.1[k].severity == Success
  {
    ScanRaisesOnly(seen, procs, Pm2Name, Pm2Status, Pm2Checker(now), (a: Alert) => a.severity == Error || a.severity == Success);
    Scan(seen, procs, Pm2Name, Pm2Status, Pm2Checker(now))
  }

  /** Status alerts, end to end: every name of the payload ends up recorded with the
      status of its last entry (the baseline is always overwritten), and when each name
      occurs once the alerts raised are exactly the per-entry checks against the
      previous record. */
  lemma Pm2ScanSpec(seen: map<string, string>, procs: seq<Pm2Proc>, now: int)
    ensures forall i :: 0 <= i < |procs| && LastWithKey(procs, Pm2Name, i) ==>
              Pm2Scan(seen, procs, now).0[procs[i].name] == procs[i].status
    ensures DistinctKeys(procs, Pm2Name) ==>
              Pm2Scan(seen, procs, now).1 == Checks(seen, procs, Pm2Name, Pm2Checker(now))
  {
    ScanRecordsLatest(seen, procs, Pm2Name, Pm2Status, Pm2Checker(now));
    if DistinctKeys(procs, Pm2Name) {
      ScanMatchesChecks(seen, procs, Pm2Name, Pm2Status, Pm2Checker(now));
    }
  }

  /** Cluster mode reports one entry per instance under the same name, and each entry
      is checked against the status the previous entry just recorded. A process recorded
      online whose instances report "stopped" then "online" raises a critical alert and
      a restored alert within one payload, where checking against the previous payload
      alone would raise only the critical one. */
  lemma Pm2ClusterFlaps(name: string, now: int)
    ensures var procs := [Pm2Proc(name, "stopped"), Pm2Proc(name, "online")];
            && |Pm2Scan(map[name := "online"], procs, now).1| == 2
            && Pm2Scan(map[name := "online"], procs, now).1[0].severity == Error
            && Pm2Scan(map[name := "online"], procs, now).1[1].severity == Success
            && |Checks(map[name := "online"], procs, Pm2Name, Pm2Checker(now))| == 1
  {
    var c := Pm2Checker(now);
    var stopped, online := Pm2Proc(name, "stopped"), Pm2Proc(name, "online");
    var m0, m1 := map[name := "online"], map[name := "stopped"];
    ScanConcat(m0, [stopped], [online], Pm2Name, Pm2Status, c);
    ScanOne(m0, stopped, Pm2Name, Pm2Status, c);
    assert m0[name := "stopped"] == m1;
    ScanOne(m1, online, Pm2Name, Pm2Status, c);
    assert [stopped] + [online] == [stopped, online];
    var procs := [stopped, online];
    assert procs[1..] == [online] && procs[1..][1..] == [];
    assert Lookup(m0, name) == Some("online");
    assert c(Some("online"), stopped).Some? && c(Some("online"), online).None?;
    assert Checks(m0, [online], Pm2Name, c) == [];
  }

  // ---------------------------------------------------------------- disk usage

  datatype DiskUsage = DiskUsage(drive: string, percentage: real)

  function DiskDrive(d: DiskUsage): string { d.drive }
  function DiskPercentage(d: DiskUsage): real { d.percentage }

  /** The low-disk alert for one volume, given the recorded usage; an unseen drive counts
      as 0 % (`storage[drive] || 0`). Raised exactly when usage crosses from at most 85 %
      to above it. */
  function DiskCheck(prev: Option<real>, d: DiskUsage, now: int): (r: Option<Alert>)
    ensures r.Some? <==> prev.GetOr(0.0) <= DiskThreshold < d.percentage
    ensures prev.None? ==> (r.Some? <==> d.percentage > DiskThreshold)
    ensures r.Some? ==> r.value == Alert(Warning, "Low Disk: " + d.drive, Figure("Threshold exceeded: ", d.percentage), now)
  {
    if prev.GetOr(0.0) <= DiskThreshold && d.percentage > DiskThreshold then
      Some(Alert(Warning, "Low Disk: " + d.drive, Figure("Threshold exceeded: ", d.percentage), now))
    else
      None
  }

  function DiskChecker(now: int): (Option<real>, DiskUsage) -> Option<Alert> {
    (prev, d) => DiskCheck(prev, d, now)
  }

  /** The `data.storage.forEach` loop: every drive of the payload is recorded, and at
      most one low-disk warning is raised per entry. */
  function DiskScan(seen: map<string, real>, disks: seq<DiskUsage>, now: int): (r: (map<string, real>, seq<Alert>))
    ensures r.0.Keys == seen.Keys + KeysOf(disks, DiskDrive)
    ensures |r.1| <= |disks|
    ensures forall k :: 0 <= k < |r.1| ==> r.1[k].severity == Warning
  {
    ScanRaisesOnly(seen, disks, DiskDrive, DiskPercentage, DiskChecker(now), (a: Alert) => a.severity == Warning);
    Scan(seen, disks, DiskDrive, DiskPercentage, DiskChecker(now))
  }

  /** Successive readings of one drive, each delivered in its own payload; returns the
      number of low-disk alerts raised and the final record. */
  function DiskTrace(seen: map<string, real>, drive: string, readings: seq<real>, now: int): (nat, map<string, real>)
    decreases |readings|
  {
    if |readings| == 0 then (0, seen)
    else
      var step := DiskScan(seen, [DiskUsage(drive, readings[0])], now);
      var rest := DiskTrace(step.0, drive, readings[1..], now);
      (|step.1| + rest.0, rest.1)
  }

  /** Sustained high usage does not re-alert: once a drive is recorded above 85 %, any
      run of readings above 85 % raises nothing. */
  lemma {:induction false} DiskSustainedHighIsSilent(seen: map<string, real>, drive: string, readings: seq<real>, now: int)
    requires drive in seen && seen[drive] > DiskThreshold
    requires forall i :: 0 <= i < |readings| ==> readings[i] > DiskThreshold
    ensures DiskTrace(seen, drive, readings, now).0 == 0
    decreases |readings|
  {
    if |readings| > 0 {
      var d := DiskUsage(drive, readings[0]);
      ScanOne(seen, d, DiskDrive, DiskPercentage, DiskChecker(now));
      DiskSustainedHighIsSilent(seen[drive := readings[0]], drive, readings[1..], now);
    }
  }

  /** A drive first seen above 85 % raises an alert at once; staying high raises nothing
      more, and a second alert needs a reading back at or below 85 % in between. */
  lemma DiskFirstSeenHighAlerts(drive: string, high: real, now: int)
    requires high > DiskThreshold
    ensures DiskTrace(map[], drive, [high, high, 50.0, high], now).0 == 2
  {
    var c := DiskChecker(now);
    var hi, lo := DiskUsage(drive, high), DiskUsage(drive, 50.0);
    var m0, mh, ml: map<string, real> := map[], map[drive := high], map[drive := 50.0];
    ScanOne(m0, hi, DiskDrive, DiskPercentage, c);
    ScanOne(mh, hi, DiskDrive, DiskPercentage, c);
    ScanOne(mh, lo, DiskDrive, DiskPercentage, c);
    ScanOne(ml, hi, DiskDrive, DiskPercentage, c);
    assert m0[drive := high] == mh;
    assert mh[drive := high] == mh;
    assert mh[drive := 50.0] == ml;
    assert ml[drive := high] == mh;
    assert |DiskScan(m0, [hi], now).1| == 1;
    assert |DiskScan(mh, [hi], now).1| == 0;
    assert |DiskScan(mh, [lo], now).1| == 0;
    assert |DiskScan(ml, [hi], now).1| == 1;
    assert [high][1..] == [];
    assert DiskTrace(ml, drive, [high], now).0 == 1;
    assert [50.0, high][1..] == [high];
    assert DiskTrace(mh, drive, [50.0, high], now).0 == 1;
    assert [high, 50.0, high][1..] == [50.0, high];
    assert DiskTrace(mh, drive, [high, 50.0, high], now).0 == 1;
    assert [high, high, 50.0, high][1..] == [high, 50.0, high];
  }

  // ---------------------------------------------------------------- memory

  /** The RAM detector: `r.0` is the new armed flag, `r.1` whether an alert fires.
      An alert fires only while disarmed and above 90 %, which arms the flag; the flag
      is released only by a reading below 85 %. A missing reading changes nothing. */
  function RamStep(armed: bool, memory: Option<real>): (r: (bool, bool))
    ensures r.1 <==> !armed && memory.Some? && memory.value > RamHigh
    ensures r.0 <==> r.1 || (armed && !(memory.Some? && memory.value < RamLow))
  {
    if !armed && memory.Some? && memory.value > RamHigh then (true, true)
    else if memory.Some? && memory.value < RamLow then (false, false)
    else (armed, false)
  }

  function RamAlert(percent: real, now: int): Alert {
    Alert(Error, "RAM Critical", Figure("Usage at ", percent), now)
  }

  /** Number of RAM alerts over a run of memory readings. */
  function RamAlerts(armed: bool, readings: seq<real>): nat
    decreases |readings|
  {
    if |readings| == 0 then 0
    else
      var step := RamStep(armed, Some(readings[0]));
      (if step.1 then 1 else 0) + RamAlerts(step.0, readings[1..])
  }

  /** Number of readings that release the alarm. */
  function Drops(readings: seq<real>): nat
    decreases |readings|
  {
    if |readings| == 0 then 0
    else (if readings[0] < RamLow then 1 else 0) + Drops(readings[1..])
  }

  /** The hysteresis band at work: [70, 92, 93, 88, 70, 95] raises two alerts, not six. */
  lemma RamHysteresisExample()
    ensures RamAlerts(false, [70.0, 92.0, 93.0, 88.0, 70.0, 95.0]) == 2
  {
    var rs := [70.0, 92.0, 93.0, 88.0, 70.0, 95.0];
    assert rs[1..] == [92.0, 93.0, 88.0, 70.0, 95.0];
    assert rs[2..] == [93.0, 88.0, 70.0, 95.0];
    assert rs[3..] == [88.0, 70.0, 95.0];
    assert rs[4..] == [70.0, 95.0];
    assert rs[5..] == [95.0];
    assert rs[1..][1..] == rs[2..];
    assert rs[2..][1..] == rs[3..];
    assert rs[3..][1..] == rs[4..];
    assert rs[4..][1..] == rs[5..];
    assert rs[5..][1..] == [];
  }

  /** Between two RAM alerts there is always a reading below 85 %: the alerts never
      outnumber the releases by more than one (none at all if already armed). */
  lemma {:induction false} RamAlertsBoundedByDrops(armed: bool, readings: seq<real>)
    ensures RamAlerts(armed, readings) <= (if armed then 0 else 1) + Drops(readings)
    decreases |readings|
  {
    if |readings| > 0 {
      RamAlertsBoundedByDrops(RamStep(armed, Some(readings[0])).0, readings[1..]);
    }
  }
}

=== FILE: client.dfy ===
/** The React dashboard (analytics-dashboard/frontend/src/App.jsx) as a reducer: each
    socket event and user action is a pure transition of `ClientState`. Clock readings
    (`Date.now()`, the local time label of a chart point) arrive as the parameter `now`. */
module Client {
  import opened Optional
  import opened Window
  import opened Alerts
  import opened StreamMerge
  import Text

  datatype NetIface = NetIface(iface: string, rx: real, tx: real, operstate: string)

  /** The fields of a `server_stats` payload the dashboard reads; `None` is a missing
      field. `memory` is `memory.percentage` and `cpu` is `cpu.usage`. */
  datatype StatsPayload = StatsPayload(
    loading: bool,
    pm2: Option<seq<Pm2Proc>>,
    storage: Option<seq<DiskUsage>>,
    memory: Option<real>,
    cpu: Option<real>,
    network: Option<seq<NetIface>>)

  /** One point of the live chart; `time` is the wall-clock time it was taken. */
  datatype HistoryPoint = HistoryPoint(time: int, cpu: real, memory: real, rx: real, tx: real)

  /** A `pm2_log` line: `process`, `type` and `data` of the payload. */
  datatype LogLine = LogLine(process: string, kind: string, text: string)

  datatype ClientState = ClientState(
    connected: bool,
    stats: Option<StatsPayload>,
    baseline: Baseline,
    alerts: seq<Alert>,
    history: seq<HistoryPoint>,
    logs: seq<LogLine>,
    stream: seq<StreamRecord>,
    historicalView: bool,
    filtered: seq<HistoryPoint>,
    zoom: int)

  const HistoryCapacity: nat := 30
  const LogCapacity: nat := 200
  const ErrorPreviewLength: nat := 80
  const MinZoom: int := 1
  const MaxZoom: int := 21
  const InitialZoom: int := 13
  const PinpointZoom: int := 16

  const Initial := ClientState(false, None, InitialBaseline, [], [], [], [], false, [], InitialZoom)

  // ---------------------------------------------------------------- server_stats

  /** The chart point for a payload: missing figures count as 0, and so does a missing
      first network interface. */
  function PointOf(data: StatsPayload, now: int): (p: HistoryPoint)
    ensures p.time == now
    ensures p.cpu == (if data.cpu.Some? then data.cpu.value else 0.0)
    ensures p.memory == (if data.memory.Some? then data.memory.value else 0.0)
    ensures data.network.None? || |data.network.value| == 0 ==> p.rx == 0.0 && p.tx == 0.0
    ensures data.network.Some? && |data.network.value| > 0 ==>
              p.rx == data.network.value[0].rx && p.tx == data.network.value[0].tx
  {
    var net := if data.network.Some? && |data.network.value| > 0 then Some(data.network.value[0]) else None;
    HistoryPoint(now, data.cpu.GetOr(0.0), data.memory.GetOr(0.0),
                 if net.Some? then net.value.rx else 0.0,
                 if net.Some? then net.value.tx else 0.0)
  }

  function Pm2ProcsOf(data: StatsPayload): seq<Pm2Proc> {
    data.pm2.GetOr([])
  }

  function DisksOf(data: StatsPayload): seq<DiskUsage> {
    data.storage.GetOr([])
  }

  /** The three detectors run in order on one payload: process status, then disks, then
      memory. Returns the new baseline and the raised alerts in the order raised. */
  function Detect(b: Baseline, data: StatsPayload, now: int): (r: (Baseline, seq<Alert>))
    ensures r.0.pm2 == Pm2Scan(b.pm2, Pm2ProcsOf(data), now).0
    ensures r.0.storage == DiskScan(b.storage, DisksOf(data), now).0
    ensures r.1 == Pm2Scan(b.pm2, Pm2ProcsOf(data), now).1 + DiskScan(b.storage, DisksOf(data), now).1
                   + (if RamStep(b.ram, data.memory).1 then [RamAlert(data.memory.value, now)] else [])
    ensures r.0.pm2.Keys == b.pm2.Keys + KeysOf(Pm2ProcsOf(data), Pm2Name)
    ensures r.0.storage.Keys == b.storage.Keys + KeysOf(DisksOf(data), DiskDrive)
    ensures r.0.ram <==> (!b.ram && data.memory.Some? && data.memory.value > RamHigh)
                         || (b.ram && !(data.memory.Some? && data.memory.value < RamLow))
    ensures |r.1| <= |Pm2ProcsOf(data)| + |DisksOf(data)| + 1
    ensures (exists k :: 0 <= k < |r.1| && r.1[k].title == "RAM Critical")
              <==> !b.ram && data.memory.Some? && data.memory.value > RamHigh
  {
    var procs := Pm2Scan(b.pm2, Pm2ProcsOf(data), now);
    var disks := DiskScan(b.storage, DisksOf(data), now);
    var ram := RamStep(b.ram, data.memory);
    var raised := procs.1 + disks.1 + if ram.1 then [RamAlert(data.memory.value, now)] else [];
    StatusAlertsAreNotRam(b.pm2, Pm2ProcsOf(data), now);
    DiskAlertsAreNotRam(b.storage, DisksOf(data), now);
    NoRamInConcat(procs.1, disks.1);
    assert ram.1 ==> raised[|raised| - 1].title == "RAM Critical";
    (Baseline(procs.0, disks.0, ram.0), raised)
  }

  /** Status alerts are titled "Service ...: name", so none is the RAM alert. */
  lemma StatusAlertsAreNotRam(seen: map<string, string>, ps: seq<Pm2Proc>, now: int)
    ensures forall k :: 0 <= k < |Pm2Scan(seen, ps, now).1| ==> Pm2Scan(seen, ps, now).1[k].title != "RAM Critical"
  {
    var notRam := (a: Alert) => a.title != "RAM Critical";
    forall prev, p | Pm2Checker(now)(prev, p).Some?
      ensures notRam(Pm2Checker(now)(prev, p).value)
    {
      assert ("Service Critical: " + p.name)[0] == 'S';
      assert ("Service Restored: " + p.name)[0] == 'S';
    }
    ScanRaisesOnly(seen, ps, Pm2Name, Pm2Status, Pm2Checker(now), notRam);
  }

  /** Disk alerts are titled "Low Disk: drive", so none is the RAM alert. */
  lemma DiskAlertsAreNotRam(seen: map<string, real>, ds: seq<DiskUsage>, now: int)
    ensures forall k :: 0 <= k < |DiskScan(seen, ds, now).1| ==> DiskScan(seen, ds, now).1[k].title != "RAM Critical"
  {
    var notRam := (a: Alert) => a.title != "RAM Critical";
    forall prev, d | DiskChecker(now)(prev, d).Some?
      ensures notRam(DiskChecker(now)(prev, d).value)
    {
      assert ("Low Disk: " + d.drive)[0] == 'L';
    }
    ScanRaisesOnly(seen, ds, DiskDrive, DiskPercentage, DiskChecker(now), notRam);
  }

  /** Two runs of alerts without the RAM alert hold none together. */
  lemma NoRamInConcat(xs: seq<Alert>, ys: seq<Alert>)
    requires forall k :: 0 <= k < |xs| ==> xs[k].title != "RAM Critical"
    requires forall k :: 0 <= k < |ys| ==> ys[k].title != "RAM Critical"
    ensures forall k :: 0 <= k < |xs + ys| ==> (xs + ys)[k].title != "RAM Critical"
  {
  }

  /** `server_stats`. A payload flagged `loading` changes nothing at all. Otherwise the
      snapshot is replaced wholesale, the detectors' baseline is updated, the raised
      alerts go into the alert history newest first, and the chart history gains one
      point at its end (30 kept); logs, stream, filter and map state are untouched. */
  function OnServerStats(s: ClientState, data: StatsPayload, now: int): (s': ClientState)
    ensures data.loading ==> s' == s
    ensures !data.loading ==> s'.stats == Some(data)
    ensures !data.loading ==> (s'.baseline, s'.alerts) == (Detect(s.baseline, data, now).0, AddAlerts(s.alerts, Detect(s.baseline, data, now).1))
    ensures !data.loading ==> s'.history == Append(s.history, PointOf(data, now), HistoryCapacity)
    ensures !data.loading ==> |s'.history| == Min(|s.history| + 1, HistoryCapacity) && s'.history[|s'.history| - 1] == PointOf(data, now)
    ensures s'.logs == s.logs && s'.stream == s.stream && s'.filtered == s.filtered
    ensures s'.historicalView == s.historicalView && s'.zoom == s.zoom && s'.connected == s.connected
  {
    if data.loading then s
    else
      var d := Detect(s.baseline, data, now);
      s.(stats := Some(data), baseline := d.0, alerts := AddAlerts(s.alerts, d.1),
         history := Append(s.history, PointOf(data, now), HistoryCapacity))
  }

  // ---------------------------------------------------------------- other socket events

  /** `pm2_log`: the line is appended (200 kept); an `err` line also raises one error
      alert whose message is the first 80 characters of the text. */
  function OnPm2Log(s: ClientState, line: LogLine, now: int): (s': ClientState)
    ensures |s'.logs| == Min(|s.logs| + 1, LogCapacity) && s'.logs[|s'.logs| - 1] == line
    ensures s'.logs[..|s'.logs| - 1] == KeepLast(s.logs, LogCapacity - 1)
    ensures line.kind != "err" ==> s'.alerts == s.alerts
    ensures line.kind == "err" ==> |s'.alerts| == Min(|s.alerts| + 1, AlertCapacity)
    ensures line.kind == "err" ==> s'.alerts[0].severity == Error && s'.alerts[1..] == KeepFirst(s.alerts, AlertCapacity - 1)
    ensures line.kind == "err" ==> s'.alerts[0].title == "Runtime Error: " + line.process
    ensures line.kind == "err" ==>
              && s'.alerts[0].message.Plain? && s'.alerts[0].message.text <= line.text
              && |s'.alerts[0].message.text| == Min(|line.text|, ErrorPreviewLength)
    ensures s'.(logs := s.logs, alerts := s.alerts) == s
  {
    var logs := Append(s.logs, line, LogCapacity);
    if line.kind == "err" then
      s.(logs := logs, alerts := AddAlert(s.alerts, Alert(Error, "Runtime Error: " + line.process,
                                                         Plain(Text.Prefix(line.text, ErrorPreviewLength)), now)))
    else
      s.(logs := logs)
  }

  /** `kinesis_data`: the record goes in front of the stream list (100 kept). */
  function OnStreamRecord(s: ClientState, r: StreamRecord): (s': ClientState)
    ensures |s'.stream| == Min(|s.stream| + 1, StreamCapacity)
    ensures s'.stream[0] == r && s'.stream[1..] == KeepFirst(s.stream, StreamCapacity - 1)
    ensures s'.(stream := s.stream) == s
  {
    s.(stream := StreamMerge.OnKinesisData(s.stream, r))
  }

  /** `connect`: linked, with an info alert. */
  function OnConnect(s: ClientState, now: int): (s': ClientState)
    ensures s'.connected
    ensures |s'.alerts| == Min(|s.alerts| + 1, AlertCapacity) && s'.alerts[1..] == KeepFirst(s.alerts, AlertCapacity - 1)
    ensures s'.alerts[0] == Alert(Info, "CloudX Linked", Plain("Encrypted connection established."), now)
    ensures s'.(connected := s.connected, alerts := s.alerts) == s
  {
    s.(connected := true, alerts := AddAlert(s.alerts, Alert(Info, "CloudX Linked", Plain("Encrypted connection established."), now)))
  }

  /** `connect_error`: an error alert naming the cause. */
  function OnConnectError(s: ClientState, cause: string, now: int): (s': ClientState)
    ensures |s'.alerts| == Min(|s.alerts| + 1, AlertCapacity) && s'.alerts[1..] == KeepFirst(s.alerts, AlertCapacity - 1)
    ensures s'.alerts[0] == Alert(Error, "Connection Lost", Plain("Engine unreachable: " + cause), now)
    ensures s'.(alerts := s.alerts) == s
  {
    s.(alerts := AddAlert(s.alerts, Alert(Error, "Connection Lost", Plain("Engine unreachable: " + cause), now)))
  }

  /** `disconnect`: only the link flag drops. */
  function OnDisconnect(s: ClientState): (s': ClientState)
    ensures !s'.connected && s'.(connected := s.connected) == s
  {
    s.(connected := false)
  }

  /** `handlePM2Action`: the command goes to the server (which ignores it) and an info
      alert is recorded. */
  function OnProcessCommand(s: ClientState, action: string, name: string, now: int): (s': ClientState)
    ensures |s'.alerts| == Min(|s.alerts| + 1, AlertCapacity) && s'.alerts[1..] == KeepFirst(s.alerts, AlertCapacity - 1)
    ensures s'.alerts[0] == Alert(Info, "Command Sent", Plain(action + " signal for " + name), now)
    ensures s'.(alerts := s.alerts) == s
  {
    s.(alerts := AddAlert(s.alerts, Alert(Info, "Command Sent", Plain(action + " signal for " + name), now)))
  }

  // ---------------------------------------------------------------- history fetch

  /** `fetchKinesisHistory`: only the stream list can change. */
  function OnHistoryFetched(s: ClientState, result: FetchResult): (s': ClientState)
    ensures !(result.Items? && AllHaveIds(result.items)) ==> s' == s
    ensures |s'.stream| <= StreamCapacity || s'.stream == s.stream
    ensures result.Items? && AllHaveIds(result.items) ==> DistinctSeqNos(s'.stream)
    ensures result.Items? && AllHaveIds(result.items) ==> s'.stream == StreamMerge.OnFetch(s.stream, result)
    ensures s'.(stream := s.stream) == s
  {
    var out := StreamMerge.OnFetch(s.stream, result);
    if result.Items? && AllHaveIds(result.items) then
      MergeSpec(s.stream, TranslateAll(result.items));
      s.(stream := out)
    else
      s.(stream := out)
  }

  // ---------------------------------------------------------------- time filter

  /** A `datetime-local` input: left empty, not a date (`getTime()` is NaN), or a time. */
  datatype Bound = Blank | NotADate | At(t: int)

  /** `itemTime >= start && itemTime <= end`; every comparison with NaN is false. */
  predicate InRange(start: Bound, end: Bound, p: HistoryPoint) {
    start.At? && end.At? && start.t <= p.time <= end.t
  }

  /** `start >= end`, false when either side is NaN. */
  predicate Reversed(start: Bound, end: Bound) {
    start.At? && end.At? && start.t >= end.t
  }

  /** `handleTimeFilter`: a blank bound or an end not after the start is rejected and
      changes nothing. Otherwise the historical view turns on and the filtered list is
      exactly the chart points inside the range, in their original order. */
  function OnTimeFilter(s: ClientState, start: Bound, end: Bound): (s': ClientState)
    ensures start.Blank? || end.Blank? || Reversed(start, end) ==> s' == s
    ensures !(start.Blank? || end.Blank? || Reversed(start, end)) ==>
              s'.historicalView && s'.filtered == Filter(s.history, p => InRange(start, end, p))
    ensures forall i :: 0 <= i < |s'.filtered| && s'.filtered != s.filtered ==> InRange(start, end, s'.filtered[i])
    ensures s'.(historicalView := s.historicalView, filtered := s.filtered) == s
  {
    if start.Blank? || end.Blank? || Reversed(start, end) then s
    else s.(historicalView := true, filtered := Filter(s.history, p => InRange(start, end, p)))
  }

  /** The filter picks exactly the in-range points and keeps their order: filtering a
      history made of two parts filters each part in place. */
  lemma TimeFilterSpec(s: ClientState, start: Bound, end: Bound, i: nat)
    requires start.At? && end.At? && start.t < end.t
    requires i <= |s.history|
    ensures forall p :: p in OnTimeFilter(s, start, end).filtered <==> p in s.history && start.t <= p.time <= end.t
    ensures OnTimeFilter(s, start, end).filtered
              == Filter(s.history[..i], p => InRange(start, end, p)) + Filter(s.history[i..], p => InRange(start, end, p))
  {
    var keep := p => InRange(start, end, p);
    var f := OnTimeFilter(s, start, end).filtered;
    forall p | p in s.history && start.t <= p.time <= end.t
      ensures p in f
    {
      var j :| 0 <= j < |s.history| && s.history[j] == p;
    }
    assert s.history == s.history[..i] + s.history[i..];
    FilterConcat(s.history[..i], s.history[i..], keep);
  }

  /** The "Live" button: back to the live chart. */
  function OnGoLive(s: ClientState): (s': ClientState)
    ensures !s'.historicalView && s'.(historicalView := s.historicalView) == s
  {
    s.(historicalView := false)
  }

  // ---------------------------------------------------------------- map zoom

  /** The "-" button: one step out, never below 1. */
  function ZoomOut(z: int): (r: int)
    ensures r >= MinZoom
    ensures z > MinZoom ==> r == z - 1
    ensures z <= MinZoom ==> r == MinZoom
  {
    if z - 1 < MinZoom then MinZoom else z - 1
  }

  /** The "+" button: one step in, never above 21. */
  function ZoomIn(z: int): (r: int)
    ensures r <= MaxZoom
    ensures z < MaxZoom ==> r == z + 1
    ensures z >= MaxZoom ==> r == MaxZoom
  {
    if z + 1 > MaxZoom then MaxZoom else z + 1
  }

  // ---------------------------------------------------------------- the reducer

  datatype Event =
    | ServerStats(data: StatsPayload, now: int)
    | Pm2Log(line: LogLine, now: int)
    | KinesisData(record: StreamRecord)
    | Connect(now: int)
    | ConnectError(cause: string, now: int)
    | Disconnect
    | ProcessCommand(action: string, name: string, now: int)
    | HistoryFetched(result: FetchResult)
    | TimeFilter(start: Bound, end: Bound)
    | GoLive
    | ZoomOutClicked
    | ZoomInClicked
    | PinpointClicked

  function Step(s: ClientState, e: Event): ClientState {
    match e
    case ServerStats(data, now) => OnServerStats(s, data, now)
    case Pm2Log(line, now) => OnPm2Log(s, line, now)
    case KinesisData(r) => OnStreamRecord(s, r)
    case Connect(now) => OnConnect(s, now)
    case ConnectError(cause, now) => OnConnectError(s, cause, now)
    case Disconnect => OnDisconnect(s)
    case ProcessCommand(action, name, now) => OnProcessCommand(s, action, name, now)
    case HistoryFetched(result) => OnHistoryFetched(s, result)
    case TimeFilter(start, end) => OnTimeFilter(s, start, end)
    case GoLive => OnGoLive(s)
    case ZoomOutClicked => s.(zoom := ZoomOut(s.zoom))
    case ZoomInClicked => s.(zoom := ZoomIn(s.zoom))
    case PinpointClicked => s.(zoom := PinpointZoom)
  }

  function Run(s: ClientState, es: seq<Event>): ClientState
    decreases |es|
  {
    if |es| == 0 then s else Run(Step(s, es[0]), es[1..])
  }

  /** Every bounded list stays within its capacity, the filtered list is no longer than
      the chart history it came from, and the map zoom stays within [1, 21]. */
  predicate Bounded(s: ClientState) {
    && |s.alerts| <= AlertCapacity
    && |s.history| <= HistoryCapacity
    && |s.logs| <= LogCapacity
    && |s.stream| <= StreamCapacity
    && |s.filtered| <= HistoryCapacity
    && MinZoom <= s.zoom <= MaxZoom
  }

  lemma AddAlertsBounded(alerts: seq<Alert>, raised: seq<Alert>)
    requires |alerts| <= AlertCapacity
    ensures |AddAlerts(alerts, raised)| <= AlertCapacity
  {
    AddAlertsNewestFirst(alerts, raised);
  }

  lemma ServerStatsBounded(s: ClientState, data: StatsPayload, now: int)
    requires Bounded(s)
    ensures Bounded(OnServerStats(s, data, now))
  {
    if !data.loading {
      AddAlertsBounded(s.alerts, Detect(s.baseline, data, now).1);
    }
  }

  /** Every event keeps the state bounded. */
  lemma StepBounded(s: ClientState, e: Event)
    requires Bounded(s)
    ensures Bounded(Step(s, e))
  {
    match e
    case ServerStats(data, now) => ServerStatsBounded(s, data, now);
    case Pm2Log(line, now) => assert Bounded(OnPm2Log(s, line, now));
    case KinesisData(r) => assert Bounded(OnStreamRecord(s, r));
    case HistoryFetched(result) => assert Bounded(OnHistoryFetched(s, result));
    case TimeFilter(start, end) =>
      assert |Filter(s.history, p => InRange(start, end, p))| <= |s.history|;
    case _ =>
  }

  /** The dashboard starts out bounded. */
  lemma InitialBounded()
    ensures Bounded(Initial)
  {
  }

  /** Whatever events arrive, a dashboard started bounded (the initial state is, see
      `InitialBounded`) stays bounded. */
  lemma {:induction false} RunBounded(s: ClientState, es: seq<Event>)
    requires Bounded(s)
    ensures Bounded(Run(s, es))
    decreases |es|
  {
    if |es| > 0 {
      StepBounded(s, es[0]);
      RunBounded(Step(s, es[0]), es[1..]);
    }
  }

  // ---------------------------------------------------------------- assistant routing

  /** The subject `handleAIQuery` answers about. */
  datatype Topic = Processes | Storage | Cpu | Memory | Network | Overview

  const ProcessWords: seq<string> := ["process", "running", "task"]
  const StorageWords: seq<string> := ["disk", "storage", "space"]
  const CpuWords: seq<string> := ["cpu", "processor", "load"]
  const MemoryWords: seq<string> := ["ram", "memory", "usage"]
  const NetworkWords: seq<string> := ["network", "internet", "bandwidth"]

  /** Keyword routing of the trimmed query: nothing is asked for an empty query;
      otherwise the first keyword group found in the lower-cased text wins. */
  function Route(query: string): (t: Option<Topic>)
    ensures t.None? <==> query == ""
    ensures t == Some(Processes) <==> query != "" && Text.ContainsAny(Text.Lower(query), ProcessWords)
    ensures t == Some(Storage) <==> query != "" && !Text.ContainsAny(Text.Lower(query), ProcessWords)
                                    && Text.ContainsAny(Text.Lower(query), StorageWords)
    ensures t == Some(Cpu) <==> query != "" && !Text.ContainsAny(Text.Lower(query), ProcessWords + StorageWords)
                                && Text.ContainsAny(Text.Lower(query), CpuWords)
    ensures t == Some(Memory) <==> query != "" && !Text.ContainsAny(Text.Lower(query), ProcessWords + StorageWords + CpuWords)
                                   && Text.ContainsAny(Text.Lower(query), MemoryWords)
    ensures t == Some(Network) <==> query != ""
                                    && !Text.ContainsAny(Text.Lower(query), ProcessWords + StorageWords + CpuWords + MemoryWords)
                                    && Text.ContainsAny(Text.Lower(query), NetworkWords)
    ensures t == Some(Overview) <==>
              && query != ""
              && (forall w :: w in ProcessWords + StorageWords + CpuWords + MemoryWords + NetworkWords ==> !Text.Contains(Text.Lower(query), w))
  {
    if query == "" then None
    else
      var q := Text.Lower(query);
      Text.ContainsAnyConcat(q, ProcessWords, StorageWords);
      Text.ContainsAnyConcat(q, ProcessWords + StorageWords, CpuWords);
      Text.ContainsAnyConcat(q, ProcessWords + StorageWords + CpuWords, MemoryWords);
      Text.ContainsAnyConcat(q, ProcessWords + StorageWords + CpuWords + MemoryWords, NetworkWords);
      if Text.ContainsAny(q, ProcessWords) then Some(Processes)
      else if Text.ContainsAny(q, StorageWords) then Some(Storage)
      else if Text.ContainsAny(q, CpuWords) then Some(Cpu)
      else if Text.ContainsAny(q, MemoryWords) then Some(Memory)
      else if Text.ContainsAny(q, NetworkWords) then Some(Network)
      else Some(Overview)
  }

  /** Routing ignores letter case: shouting the question gets the same answer. */
  lemma RouteIgnoresCase(query: string)
    ensures Route(Text.Upper(query)) == Route(query)
  {
    assert Text.Lower(Text.Upper(query)) == Text.Lower(query);
  }
}

=== FILE: hub.dfy ===
/** The backend's canonical-state holder (analytics-dashboard/backend/server.js): one
    "latest stats" value, replaced wholesale by either ingest path (`POST /agent_data`
    or the socket event `agent_metrics`), broadcast to every connected client as
    `server_stats`, and replayed to each newly connected client when it is truthy. */
module Hub {

  /** A request body or event payload, as its JSON text; the server never looks inside. */
  type Json = string

  /** A JavaScript value as the server sees it. `null` and `undefined` are `Nullish`:
      reading `data.system` of one throws a `TypeError`. `OtherFalsy` stands for the other
      falsy values (`false`, `0`, `""`), which can be read and stored but are never
      replayed (`if (globalStats)`). Anything else is passed on untouched. */
  datatype Body = Nullish | OtherFalsy | Truthy(value: Json)

  /** A socket.io socket id. */
  type ClientId = string

  /** One `server_stats` message sent to one client. */
  datatype Delivery = Delivery(to: ClientId, stats: Body)

  /** The holder: `globalStats` and the set of connected sockets. */
  datatype State = State(latest: Body, clients: set<ClientId>)

  /** `let globalStats = null` and nobody connected. */
  function Initial(): (h: State)
    ensures h.latest.Nullish? && h.clients == {}
  {
    State(Nullish, {})
  }

  datatype Request =
    | PostAgentData(body: Json)                   // express.json always yields an object: truthy
    | Connect(id: ClientId)
    | AgentMetrics(sender: ClientId, data: Body)
    | Pm2Action(sender: ClientId)
    | Disconnect(id: ClientId)
    | Health(now: string)                      // the ISO time of the request

  datatype Reply =
    | NoReply
    | TextReply(code: int, text: string)
    | HealthReport(status: string, mode: string, timestamp: string)

  /** `io.emit('server_stats', b)`: one delivery per connected client, the sender included. */
  function Broadcast(clients: set<ClientId>, b: Body): (d: set<Delivery>)
    ensures forall c :: c in clients <==> Delivery(c, b) in d
    ensures forall x :: x in d ==> x.stats == b && x.to in clients
  {
    set c | c in clients :: Delivery(c, b)
  }

  /** One request handled: the new holder, the messages sent, and the HTTP reply. */
  function Handle(h: State, req: Request): (r: (State, set<Delivery>, Reply))
    // both ingest paths replace the value wholesale and broadcast it to every client
    ensures req.PostAgentData? ==>
              && r.0 == State(Truthy(req.body), h.clients)
              && (forall c :: c in h.clients <==> Delivery(c, Truthy(req.body)) in r.1)
              && (forall x :: x in r.1 ==> x.stats == Truthy(req.body))
              && r.2 == TextReply(200, "OK")
    // a nullish payload throws while being logged, before it is stored or sent
    ensures req.AgentMetrics? && req.data.Nullish? ==> r.0 == h && r.1 == {} && r.2 == NoReply
    ensures req.AgentMetrics? && !req.data.Nullish? ==>
              && r.0 == State(req.data, h.clients)
              && (forall c :: c in h.clients <==> Delivery(c, req.data) in r.1)
              && (forall x :: x in r.1 ==> x.stats == req.data)
              && (req.sender in h.clients ==> Delivery(req.sender, req.data) in r.1)
              && r.2 == NoReply
    // a new client gets exactly one replay when there is a truthy value, none otherwise
    ensures req.Connect? ==>
              && r.0 == State(h.latest, h.clients + {req.id})
              && (h.latest.Truthy? ==> r.1 == {Delivery(req.id, h.latest)})
              && (!h.latest.Truthy? ==> r.1 == {})
    // the rest keep the value and send nothing
    ensures req.Pm2Action? || req.Disconnect? || req.Health? ==> r.0.latest == h.latest && r.1 == {}
    ensures req.Disconnect? ==> r.0.clients == h.clients - {req.id}
    ensures req.Health? ==> r.0 == h && r.2.HealthReport? && r.2.status == "ok" && r.2.timestamp == req.now
  {
    match req
    case PostAgentData(body) => (State(Truthy(body), h.clients), Broadcast(h.clients, Truthy(body)), TextReply(200, "OK"))
    case Connect(id) =>
      (State(h.latest, h.clients + {id}), if h.latest.Truthy? then {Delivery(id, h.latest)} else {}, NoReply)
    case AgentMetrics(_, data) =>
      if data.Nullish? then (h, {}, NoReply)
      else (State(data, h.clients), Broadcast(h.clients, data), NoReply)
    case Pm2Action(_) => (h, {}, NoReply)
    case Disconnect(id) => (State(h.latest, h.clients - {id}), {}, NoReply)
    case Health(now) => (h, {}, HealthReport("ok", "lambda-integrated", now))
  }

  function Run(h: State, reqs: seq<Request>): State
    decreases |reqs|
  {
    if |reqs| == 0 then h else Run(Handle(h, reqs[0]).0, reqs[1..])
  }

  /** Reference definition: the body of the most recent ingest that was stored, if any
      (a nullish `agent_metrics` payload never is). */
  function LastWrite(reqs: seq<Request>, otherwise: Body): Body
    decreases |reqs|
  {
    if |reqs| == 0 then otherwise
    else
      match reqs[|reqs| - 1]
      case PostAgentData(body) => Truthy(body)
      case AgentMetrics(_, data) =>
        if data.Nullish? then LastWrite(reqs[..|reqs| - 1], otherwise) else data
      case _ => LastWrite(reqs[..|reqs| - 1], otherwise)
  }

  lemma {:induction false} LastWriteSnoc(reqs: seq<Request>, q: Request, otherwise: Body)
    ensures LastWrite(reqs + [q], otherwise) == LastWrite([q], LastWrite(reqs, otherwise))
  {
    assert (reqs + [q])[..|reqs + [q]| - 1] == reqs;
    assert [q][..0] == [];
  }

  /** Last writer wins: after any sequence of requests the held value is the body of
      the most recent ingest, or the starting value if there was none. */
  lemma {:induction false} LastWriterWins(h: State, reqs: seq<Request>)
    ensures Run(h, reqs).latest == LastWrite(reqs, h.latest)
    decreases |reqs|
  {
    if |reqs| > 0 {
      var q := reqs[0];
      var h' := Handle(h, q).0;
      LastWriterWins(h', reqs[1..]);
      assert LastWrite([q], h.latest) == h'.latest by {
        assert [q][..0] == [];
      }
      LastWritePrepend(q, reqs[1..], h.latest);
      assert [q] + reqs[1..] == reqs;
    }
  }

  lemma {:induction false} LastWritePrepend(q: Request, rest: seq<Request>, otherwise: Body)
    ensures LastWrite([q] + rest, otherwise) == LastWrite(rest, LastWrite([q], otherwise))
    decreases |rest|
  {
    if |rest| == 0 {
      assert [q] + rest == [q];
    } else {
      var init := rest[..|rest| - 1];
      var last := rest[|rest| - 1];
      assert [q] + rest == ([q] + init) + [last];
      assert rest == init + [last];
      LastWriteSnoc([q] + init, last, otherwise);
      LastWriteSnoc(init, last, LastWrite([q], otherwise));
      LastWritePrepend(q, init, otherwise);
    }
  }

  /** A client connecting after any history from start-up receives the most recent
      stored ingest exactly when it was truthy, and nothing before the first ingest. */
  lemma ConnectReplaysLastWrite(reqs: seq<Request>, id: ClientId)
    ensures var d := Handle(Run(Initial(), reqs), Connect(id)).1;
            && (LastWrite(reqs, Nullish).Truthy? ==> d == {Delivery(id, LastWrite(reqs, Nullish))})
            && (!LastWrite(reqs, Nullish).Truthy? ==> d == {})
  {
    LastWriterWins(Initial(), reqs);
  }
}

=== FILE: legacy.dfy ===
/** The older vanilla dashboard (analytics-dashboard/backend/public/app.js): its
    `analytics_update` handler updates the VM figures, plots one CPU point on a chart of
    at most 21 points, and rebuilds the recent-events list. */
module Legacy {
  import opened Optional
  import opened Window

  // ---------------------------------------------------------------- the CPU chart

  /** The chart's two parallel arrays: time labels and CPU values. */
  datatype Chart = Chart(labels: seq<string>, values: seq<int>)

  const EmptyChart := Chart([], [])

  /** The chart is shifted once it holds more than this many points. */
  const ShiftAbove: nat := 20
  const MaxPoints: nat := ShiftAbove + 1

  /** `Array.prototype.shift`, result discarded: drop the first element if any. */
  function Shift<T>(s: seq<T>): (r: seq<T>)
    ensures |r| == (if |s| > 0 then |s| - 1 else 0)
    ensures |s| > 0 ==> s == [s[0]] + r
    ensures |s| == 0 ==> r == []
  {
    if |s| == 0 then s else s[1..]
  }

  /** Plot one point: skipped when its tick repeats the last tick; otherwise the
      oldest point is shifted off when the chart holds more than 20, and the new point
      is pushed at the end. */
  function Plot(c: Chart, tick: string, value: int): (c': Chart)
    ensures |c.labels| > 0 && c.labels[|c.labels| - 1] == tick ==> c' == c
    ensures !(|c.labels| > 0 && c.labels[|c.labels| - 1] == tick) ==>
              && |c'.labels| == (if |c.labels| > ShiftAbove then |c.labels| else |c.labels| + 1)
              && c'.labels[|c'.labels| - 1] == tick
              && |c'.values| > 0 && c'.values[|c'.values| - 1] == value
              && c'.labels[..|c'.labels| - 1] == c.labels[|c.labels| + 1 - |c'.labels|..]
    ensures |c.labels| == |c.values| ==> |c'.labels| == |c'.values|
    ensures |c.labels| == |c.values| && !(|c.labels| > 0 && c.labels[|c.labels| - 1] == tick) ==>
              c'.values[..|c'.values| - 1] == c.values[|c.values| + 1 - |c'.values|..]
    ensures |c.labels| <= MaxPoints ==> |c'.labels| <= MaxPoints
  {
    if |c.labels| > 0 && c.labels[|c.labels| - 1] == tick then c
    else if |c.labels| > ShiftAbove then
      Chart(Shift(c.labels) + [tick], Shift(c.values) + [value])
    else
      Chart(c.labels + [tick], c.values + [value])
  }

  /** A sample offered to the chart: its time tick and rounded CPU value. */
  datatype Sample = Sample(tick: string, value: int)

  function PlotAll(c: Chart, samples: seq<Sample>): Chart
    decreases |samples|
  {
    if |samples| == 0 then c
    else PlotAll(Plot(c, samples[0].tick, samples[0].value), samples[1..])
  }

  /** Reference definition: the samples that start a run of equal labels. */
  function RunStarts(samples: seq<Sample>): (r: seq<Sample>)
    ensures |r| <= |samples|
    ensures |samples| > 0 ==> |r| > 0 && r[|r| - 1].tick == samples[|samples| - 1].tick
    decreases |samples|
  {
    if |samples| == 0 then []
    else
      var init, x := samples[..|samples| - 1], samples[|samples| - 1];
      if |init| > 0 && init[|init| - 1].tick == x.tick then RunStarts(init)
      else RunStarts(init) + [x]
  }

  function LabelsOf(s: seq<Sample>): (r: seq<string>)
    ensures |r| == |s| && forall i :: 0 <= i < |s| ==> r[i] == s[i].tick
  {
    seq(|s|, i requires 0 <= i < |s| => s[i].tick)
  }

  function ValuesOf(s: seq<Sample>): (r: seq<int>)
    ensures |r| == |s| && forall i :: 0 <= i < |s| ==> r[i] == s[i].value
  {
    seq(|s|, i requires 0 <= i < |s| => s[i].value)
  }

  /** The chart as its reference definition: the last 21 run starts. */
  function ChartOf(points: seq<Sample>): Chart {
    var kept := KeepLast(points, MaxPoints);
    Chart(LabelsOf(kept), ValuesOf(kept))
  }

  /** Projecting a shifted-then-pushed list is shifting-then-pushing the projections. */
  lemma ProjectShiftPush(kept: seq<Sample>, x: Sample, shift: bool)
    requires shift ==> |kept| > 0
    ensures var s := if shift then kept[1..] else kept;
            && LabelsOf(s + [x]) == (if shift then LabelsOf(kept)[1..] else LabelsOf(kept)) + [x.tick]
            && ValuesOf(s + [x]) == (if shift then ValuesOf(kept)[1..] else ValuesOf(kept)) + [x.value]
  {
  }

  /** Keeping the last `n` after one more element: at capacity the oldest goes. */
  lemma KeepLastSnoc(r: seq<Sample>, x: Sample, n: nat)
    requires n > 0
    ensures var kept := KeepLast(r, n);
            KeepLast(r + [x], n) == (if |kept| >= n then kept[1..] else kept) + [x]
  {
    var kept := KeepLast(r, n);
    var lhs := KeepLast(r + [x], n);
    var rhs := (if |kept| >= n then kept[1..] else kept) + [x];
    assert |lhs| == |rhs|;
    forall i | 0 <= i < |lhs|
      ensures lhs[i] == rhs[i]
    {
    }
  }

  /** The last tick on the reference chart is the last run start's tick. */
  lemma LastTickOfReference(r: seq<Sample>)
    requires |r| > 0
    ensures |ChartOf(r).labels| > 0 && ChartOf(r).labels[|ChartOf(r).labels| - 1] == r[|r| - 1].tick
  {
    var kept := KeepLast(r, MaxPoints);
    assert kept[|kept| - 1] == r[|r| - 1];
  }

  /** Plotting a new run start onto the reference chart. */
  lemma PlotNewRun(r: seq<Sample>, x: Sample)
    requires |r| > 0 ==> r[|r| - 1].tick != x.tick
    ensures Plot(ChartOf(r), x.tick, x.value) == ChartOf(r + [x])
  {
    var kept := KeepLast(r, MaxPoints);
    var c := ChartOf(r);
    if |r| > 0 {
      LastTickOfReference(r);
    }
    KeepLastSnoc(r, x, MaxPoints);
    ProjectShiftPush(kept, x, |kept| > ShiftAbove);
  }

  lemma PlotMatchesReference(samples: seq<Sample>, x: Sample)
    ensures Plot(ChartOf(RunStarts(samples)), x.tick, x.value) == ChartOf(RunStarts(samples + [x]))
  {
    var all := samples + [x];
    assert all[..|all| - 1] == samples;
    var r := RunStarts(samples);
    if |samples| > 0 && samples[|samples| - 1].tick == x.tick {
      assert RunStarts(all) == r;
      LastTickOfReference(r);
    } else {
      assert RunStarts(all) == r + [x];
      PlotNewRun(r, x);
    }
  }

  /** Whatever samples arrive, the chart holds exactly the last 21 points that start a
      run of equal ticks, ticks and values side by side. */
  lemma {:induction false} PlotAllMatchesReference(samples: seq<Sample>, more: seq<Sample>)
    ensures PlotAll(ChartOf(RunStarts(samples)), more) == ChartOf(RunStarts(samples + more))
    decreases |more|
  {
    if |more| == 0 {
      assert samples + more == samples;
    } else {
      var x, rest := more[0], more[1..];
      var next := samples + [x];
      assert next + rest == samples + more;
      calc {
        PlotAll(ChartOf(RunStarts(samples)), more);
        PlotAll(Plot(ChartOf(RunStarts(samples)), x.tick, x.value), rest);
        { PlotMatchesReference(samples, x); }
        PlotAll(ChartOf(RunStarts(next)), rest);
        { PlotAllMatchesReference(next, rest); }
        ChartOf(RunStarts(next + rest));
      }
    }
  }

  /** Consecutive run starts never share a tick. */
  lemma {:induction false} RunStartsHaveNoRepeats(samples: seq<Sample>)
    ensures forall i :: 0 < i < |RunStarts(samples)| ==> RunStarts(samples)[i - 1].tick != RunStarts(samples)[i].tick
    decreases |samples|
  {
    if |samples| > 0 {
      RunStartsHaveNoRepeats(samples[..|samples| - 1]);
    }
  }

  /** A chart started empty is the reference chart of everything plotted onto it. */
  lemma PlotAllFromEmpty(samples: seq<Sample>)
    ensures PlotAll(EmptyChart, samples) == ChartOf(RunStarts(samples))
  {
    assert ChartOf(RunStarts([])) == EmptyChart;
    PlotAllMatchesReference([], samples);
    assert [] + samples == samples;
  }

  /** A reference chart without repeated neighbours keeps none: it is a suffix. */
  lemma ChartOfKeepsNoRepeats(r: seq<Sample>)
    requires forall i :: 0 < i < |r| ==> r[i - 1].tick != r[i].tick
    ensures |ChartOf(r).labels| == |ChartOf(r).values| <= MaxPoints
    ensures forall i :: 0 < i < |ChartOf(r).labels| ==> ChartOf(r).labels[i - 1] != ChartOf(r).labels[i]
  {
    var kept := KeepLast(r, MaxPoints);
    var labels := LabelsOf(kept);
    forall i | 0 < i < |labels|
      ensures labels[i - 1] != labels[i]
    {
      var j := |r| - |kept| + i;
      assert kept[i - 1] == r[j - 1] && kept[i] == r[j];
    }
  }

  /** The chart started empty stays within 21 points, keeps its arrays parallel and
      never shows the same tick twice in a row. */
  lemma ChartInvariant(samples: seq<Sample>)
    ensures |PlotAll(EmptyChart, samples).labels| == |PlotAll(EmptyChart, samples).values| <= MaxPoints
    ensures forall i :: 0 < i < |PlotAll(EmptyChart, samples).labels| ==>
              PlotAll(EmptyChart, samples).labels[i - 1] != PlotAll(EmptyChart, samples).labels[i]
  {
    PlotAllFromEmpty(samples);
    RunStartsHaveNoRepeats(samples);
    ChartOfKeepsNoRepeats(RunStarts(samples));
  }

  // ---------------------------------------------------------------- figures

  /** `Math.round`: the nearest integer, halves rounded up. */
  function Round(x: real): (r: int)
    ensures r as real - 0.5 <= x < r as real + 0.5
  {
    (x + 0.5).Floor
  }

  /** Towards-zero truncation, as JavaScript's `%` uses for its quotient. */
  function Trunc(q: real): (t: int)
    ensures q >= 0.0 ==> t as real <= q < t as real + 1.0
    ensures q < 0.0 ==> t as real - 1.0 < q <= t as real
  {
    if q >= 0.0 then q.Floor else -((-q).Floor)
  }

  const SecondsPerHour := 3600.0
  const SecondsPerMinute := 60.0

  /** `seconds % 3600` in JavaScript: the remainder takes the sign of the dividend. */
  function SecondsPastHour(seconds: real): (r: real)
    ensures seconds >= 0.0 ==> 0.0 <= r < SecondsPerHour
    ensures seconds < 0.0 ==> -SecondsPerHour < r <= 0.0
    ensures r == seconds - SecondsPerHour * (Trunc(seconds / SecondsPerHour) as real)
  {
    seconds - SecondsPerHour * (Trunc(seconds / SecondsPerHour) as real)
  }

  /** `uptimeHrs` and `uptimeMins` for an uptime in seconds. For a non-negative uptime
      the split is exact to the minute: minutes are 0..59, and hours and minutes
      together fall short of the uptime by less than a minute. */
  function SplitUptime(seconds: real): (r: (int, int))
    ensures seconds >= 0.0 ==> r.0 >= 0 && 0 <= r.1 <= 59
    ensures seconds >= 0.0 ==>
              (r.0 * 3600 + r.1 * 60) as real <= seconds < (r.0 * 3600 + r.1 * 60 + 60) as real
  {
    var hours := (seconds / SecondsPerHour).Floor;
    var past := SecondsPastHour(seconds);
    var minutes := (past / SecondsPerMinute).Floor;
    if seconds >= 0.0 then
      assert Trunc(seconds / SecondsPerHour) == hours;
      assert minutes as real * SecondsPerMinute <= past < minutes as real * SecondsPerMinute + SecondsPerMinute;
      (hours, minutes)
    else
      (hours, minutes)
  }

  // ---------------------------------------------------------------- the handler

  /** The `vm` part of an update; `None` figures are missing (and read as 0). */
  datatype VmSample = VmSample(cpuUsage: Option<real>, memoryPercent: Option<real>, diskPercent: Option<real>,
                               bootTime: real, timeLabel: string)

  /** An action of the events feed; an empty `page` is a missing one. */
  datatype FeedEvent = FeedEvent(user: string, action: string, page: string, timestamp: string)

  datatype Update = Update(vm: Option<VmSample>, events: Option<seq<FeedEvent>>)

  /** What the figures panel shows. */
  datatype VmFigures = VmFigures(cpu: int, memory: real, disk: real, hours: int, minutes: int)

  /** One rendered row of the events list. */
  datatype Row = Row(typeClass: string, user: string, text: string, timestamp: string)

  datatype View = View(figures: Option<VmFigures>, chart: Chart, rows: seq<Row>)

  /** The row style of an action: the three known actions keep their name, every other
      action is shown as a click. */
  function ActionClass(action: string): (c: string)
    ensures c in {"login", "logout", "purchase", "click"}
    ensures action in {"login", "logout", "purchase"} ==> c == action
    ensures action !in {"login", "logout", "purchase"} ==> c == "click"
  {
    if action == "purchase" then "purchase"
    else if action == "logout" then "logout"
    else if action == "login" then "login"
    else "click"
  }

  function RowOf(e: FeedEvent): (r: Row)
    ensures r.typeClass == ActionClass(e.action) && r.user == e.user && r.timestamp == e.timestamp
    ensures e.page == "" ==> r.text == e.action + " "
    ensures e.page != "" ==> r.text == e.action + " on " + e.page
  {
    Row(ActionClass(e.action), e.user, e.action + " " + (if e.page != "" then "on " + e.page else ""), e.timestamp)
  }

  /** `analytics_update`, with the clock reading `nowMs` (milliseconds). Without `vm`
      the figures and the chart stay as they are; without events, or with an empty
      list, the rows stay as they are; otherwise the rows are rebuilt wholesale, one per
      event, in order. */
  function OnAnalyticsUpdate(v: View, u: Update, nowMs: real): (v': View)
    ensures u.vm.None? ==> v'.figures == v.figures && v'.chart == v.chart
    ensures u.vm.Some? ==> v'.figures.Some? && v'.figures.value.cpu == Round(u.vm.value.cpuUsage.GetOr(0.0))
    ensures u.vm.Some? ==> v'.figures.value.memory == u.vm.value.memoryPercent.GetOr(0.0)
                           && v'.figures.value.disk == u.vm.value.diskPercent.GetOr(0.0)
    ensures u.vm.Some? ==> (v'.figures.value.hours, v'.figures.value.minutes) == SplitUptime(nowMs / 1000.0 - u.vm.value.bootTime)
    ensures u.vm.Some? ==> v'.chart == Plot(v.chart, u.vm.value.timeLabel, Round(u.vm.value.cpuUsage.GetOr(0.0)))
    ensures u.events.None? || |u.events.value| == 0 ==> v'.rows == v.rows
    ensures u.events.Some? && |u.events.value| > 0 ==>
              |v'.rows| == |u.events.value| && forall i :: 0 <= i < |v'.rows| ==> v'.rows[i] == RowOf(u.events.value[i])
  {
    var (figures, chart) :=
      match u.vm
      case None => (v.figures, v.chart)
      case Some(vm) =>
        var cpu := Round(vm.cpuUsage.GetOr(0.0));
        var (h, m) := SplitUptime(nowMs / 1000.0 - vm.bootTime);
        (Some(VmFigures(cpu, vm.memoryPercent.GetOr(0.0), vm.diskPercent.GetOr(0.0), h, m)),
         Plot(v.chart, vm.timeLabel, cpu));
    var rows :=
      if u.events.Some? && |u.events.value| > 0 then
        seq(|u.events.value|, i requires 0 <= i < |u.events.value| => RowOf(u.events.value[i]))
      else v.rows;
    View(figures, chart, rows)
  }
}

=== FILE: option.dfy ===
/** An optional value: a JavaScript `undefined`/`null` field, or Python's `None`. */
module Optional {

  datatype Option<T> = None | Some(value: T) {

    /** The value, or `default` when absent. */
    function GetOr(default: T): T {
      match this
      case Some(v) => v
      case None => default
    }

    /** The value as a one-element list, or the empty list. */
    function ToSeq(): (r: seq<T>)
      ensures |r| <= 1
      ensures r == [] <==> None?
    {
      match this
      case Some(v) => [v]
      case None => []
    }
  }

  /** Look a key up in a map; `None` plays JavaScript's `undefined` for a missing key. */
  function Lookup<K, V>(m: map<K, V>, k: K): (r: Option<V>)
    ensures r.Some? <==> k in m
    ensures r.Some? ==> r.value == m[k]
  {
    if k in m then Some(m[k]) else None
  }
}

=== FILE: producer.dfy ===
/** The telemetry producer (cloudx_agent/kinesis_producer.py, `get_real_telemetry`):
    a strict-greater argmax over the process list, defaulting to ("System", 0), and
    the usage-report event built around it. */
module Producer {

  /** One process as the scan sees it. `Unreadable` is a process whose CPU reading is
      missing: comparing it raises, the bare `except` catches it, and the scan ends. */
  datatype Reading = Sampled(name: string, cpu: real) | Unreadable

  const DefaultName := "System"
  const DefaultCpu := 0.0

  /** The readings the scan compares: everything before the first unreadable one. */
  function Scanned(readings: seq<Reading>): (r: seq<Reading>)
    ensures r <= readings
    ensures forall i :: 0 <= i < |r| ==> r[i].Sampled?
    ensures |r| < |readings| ==> readings[|r|].Unreadable?
  {
    if |readings| == 0 || readings[0].Unreadable? then []
    else [readings[0]] + Scanned(readings[1..])
  }

  lemma {:induction false} ScannedIsPrefix(readings: seq<Reading>, n: nat)
    requires n <= |readings|
    requires forall i :: 0 <= i < n ==> readings[i].Sampled?
    requires n == |readings| || readings[n].Unreadable?
    ensures Scanned(readings) == readings[..n]
  {
    if n > 0 {
      ScannedIsPrefix(readings[1..], n - 1);
      assert readings[..n] == [readings[0]] + readings[1..][..n - 1];
    }
  }

  /** An unreadable process ends the scan: whatever follows it is never compared, so
      the result is the best found before it. */
  lemma ScanStopsAtUnreadable(before: seq<Reading>, after: seq<Reading>)
    requires forall i :: 0 <= i < |before| ==> before[i].Sampled?
    ensures Scanned(before + [Unreadable] + after) == before
  {
    var all := before + [Unreadable] + after;
    ScannedIsPrefix(all, |before|);
    assert all[..|before|] == before;
  }

  /** The top-process loop. The result is ("System", 0) exactly when no scanned process
      uses more than 0% CPU; otherwise it is the first scanned process attaining the
      maximum. Either way its CPU is at least every scanned CPU. */
  method TopProcess(readings: seq<Reading>) returns (name: string, cpu: real)
    ensures var s := Scanned(readings);
            forall i :: 0 <= i < |s| ==> s[i].cpu <= cpu
    ensures cpu >= DefaultCpu
    ensures var s := Scanned(readings);
            (forall i :: 0 <= i < |s| ==> s[i].cpu <= DefaultCpu) <==> (name == DefaultName && cpu == DefaultCpu)
    ensures var s := Scanned(readings);
            (exists i :: 0 <= i < |s| && s[i].cpu > DefaultCpu) ==>
              exists i :: 0 <= i < |s| && s[i] == Sampled(name, cpu) && forall j :: 0 <= j < i ==> s[j].cpu < cpu
  {
    name, cpu := DefaultName, DefaultCpu;
    var best := -1;
    var n := 0;
    while n < |readings| && readings[n].Sampled?
      invariant 0 <= n <= |readings|
      invariant forall j :: 0 <= j < n ==> readings[j].Sampled? && readings[j].cpu <= cpu
      invariant -1 <= best < n
      invariant best == -1 ==> name == DefaultName && cpu == DefaultCpu
      invariant best >= 0 ==> readings[best] == Sampled(name, cpu) && cpu > DefaultCpu
      invariant best >= 0 ==> forall j :: 0 <= j < best ==> readings[j].cpu < cpu
    {
      if readings[n].cpu > cpu {
        name, cpu := readings[n].name, readings[n].cpu;
        best := n;
      }
      n := n + 1;
    }
    ScannedIsPrefix(readings, n);
    if best >= 0 {
      assert readings[..n][best] == Sampled(name, cpu);
    }
  }

  /** The record sent to the stream. Number-to-text rendering is the parameter `show`. */
  datatype UsageEvent = UsageEvent(user: string, action: string, page: string, timestamp: string,
                                   browser: string, os: string, ip: string,
                                   cpu: real, memoryPercent: real, memoryUsedGb: real)

  const UsageAction := "USAGE_REPORT"

  /** `get_real_telemetry`: the host reports itself as the user, the action is always a
      usage report, and the page names the top process and its CPU. */
  method GetRealTelemetry(host: string, ip: string, now: string, cpuUsage: real, memoryPercent: real,
                          memoryUsedGb: real, readings: seq<Reading>, show: real -> string)
    returns (e: UsageEvent, top: string, topCpu: real)
    ensures e.action == UsageAction && e.user == host && e.ip == ip && e.timestamp == now
    ensures e.page == "Top Proc: " + top + " (" + show(topCpu) + "%)"
    ensures var s := Scanned(readings);
            && (forall i :: 0 <= i < |s| ==> s[i].cpu <= topCpu)
            && (top == DefaultName || exists i :: 0 <= i < |s| && s[i] == Sampled(top, topCpu))
    ensures topCpu >= DefaultCpu
    ensures var s := Scanned(readings);
            (forall i :: 0 <= i < |s| ==> s[i].cpu <= DefaultCpu) <==> (top == DefaultName && topCpu == DefaultCpu)
    ensures var s := Scanned(readings);
            (exists i :: 0 <= i < |s| && s[i].cpu > DefaultCpu) ==>
              exists i :: 0 <= i < |s| && s[i] == Sampled(top, topCpu) && forall j :: 0 <= j < i ==> s[j].cpu < topCpu
    ensures e.browser == "CPU: " + show(cpuUsage) + "%" && e.os == "RAM: " + show(memoryPercent) + "%"
    ensures e.cpu == cpuUsage && e.memoryPercent == memoryPercent && e.memoryUsedGb == memoryUsedGb
  {
    top, topCpu := TopProcess(readings);
    e := UsageEvent(host, UsageAction, "Top Proc: " + top + " (" + show(topCpu) + "%)", now,
                    "CPU: " + show(cpuUsage) + "%", "RAM: " + show(memoryPercent) + "%", ip,
                    cpuUsage, memoryPercent, memoryUsedGb);
  }
}

=== FILE: stream_merge.dfy ===
/** The live stream records of the React dashboard and the merge performed by
    `fetchKinesisHistory` (analytics-dashboard/frontend/src/App.jsx): store items are
    mapped to records, put ahead of the records already held, de-duplicated through a
    JavaScript `Map` keyed by sequence number, and cut to 100. */
module StreamMerge {
  import opened Optional
  import opened Window
  import Text

  /** The user action carried by a record. */
  datatype EventData = EventData(user: string, action: string, page: string, timestamp: string)

  /** A stream record as the dashboard holds it; `seqNo` is its identity. */
  datatype StreamRecord = StreamRecord(id: string, seqNo: string, data: Option<EventData>, arrival: Option<string>)

  /** An item of the history endpoint's answer; `id` is `None` when it is missing or not
      a string, which makes `item.id.substring` throw. */
  datatype StoreItem = StoreItem(id: Option<string>, rawData: Option<EventData>, timestamp: Option<string>)

  /** What the history fetch yields: the request or the JSON parse failed, the body is
      not an array, or an array of items. */
  datatype FetchResult = FetchFailed | NotArray | Items(items: seq<StoreItem>)

  const StreamCapacity: nat := 100
  const ShortIdLength: nat := 8

  function SeqNos(rs: seq<StreamRecord>): set<string> {
    set i | 0 <= i < |rs| :: rs[i].seqNo
  }

  predicate DistinctSeqNos(rs: seq<StreamRecord>) {
    forall i, j :: 0 <= i < j < |rs| ==> rs[i].seqNo != rs[j].seqNo
  }

  lemma SeqNosSnoc(rs: seq<StreamRecord>, r: StreamRecord)
    ensures SeqNos(rs + [r]) == SeqNos(rs) + {r.seqNo}
  {
    assert forall i :: 0 <= i < |rs| ==> (rs + [r])[i] == rs[i];
    assert (rs + [r])[|rs|] == r;
  }

  lemma SeqNosConcat(a: seq<StreamRecord>, b: seq<StreamRecord>)
    ensures SeqNos(a + b) == SeqNos(a) + SeqNos(b)
  {
    assert forall i :: 0 <= i < |a| ==> (a + b)[i] == a[i];
    assert forall i :: 0 <= i < |b| ==> (a + b)[|a| + i] == b[i];
    forall k | k in SeqNos(a + b)
      ensures k in SeqNos(a) + SeqNos(b)
    {
      var i :| 0 <= i < |a + b| && (a + b)[i].seqNo == k;
      if i >= |a| {
        assert b[i - |a|].seqNo == k;
      }
    }
  }

  // ---------------------------------------------------------------- the live event

  /** `kinesis_data`: the record goes in front and the list keeps its first 100. */
  function OnKinesisData(held: seq<StreamRecord>, r: StreamRecord): (out: seq<StreamRecord>)
    ensures |out| == Min(|held| + 1, StreamCapacity)
    ensures out[0] == r
    ensures out[1..] == KeepFirst(held, StreamCapacity - 1)
  {
    Prepend(r, held, StreamCapacity)
  }

  // ---------------------------------------------------------------- JavaScript Map

  /** `map.set(r.seqNo, r)` on a Map whose entries, in insertion order, are `entries`:
      a known key keeps its position and takes the new value; a new key goes last. */
  function MapSet(entries: seq<StreamRecord>, r: StreamRecord): (out: seq<StreamRecord>)
    requires DistinctSeqNos(entries)
    ensures DistinctSeqNos(out)
    ensures SeqNos(out) == SeqNos(entries) + {r.seqNo}
    ensures r.seqNo in SeqNos(entries) ==> |out| == |entries|
    ensures r.seqNo !in SeqNos(entries) ==> out == entries + [r]
    ensures forall k :: 0 <= k < |entries| ==> out[k] == if entries[k].seqNo == r.seqNo then r else entries[k]
  {
    if r.seqNo in SeqNos(entries) then
      var out := seq(|entries|, k requires 0 <= k < |entries| => if entries[k].seqNo == r.seqNo then r else entries[k]);
      assert forall k :: 0 <= k < |out| ==> out[k].seqNo == entries[k].seqNo;
      assert SeqNos(out) == SeqNos(entries);
      out
    else
      SeqNosSnoc(entries, r);
      entries + [r]
  }

  /** `new Map(rs.map(r => [r.seqNo, r]))` read back with `.values()`. */
  function BuildMap(rs: seq<StreamRecord>): (out: seq<StreamRecord>)
    ensures DistinctSeqNos(out)
    ensures SeqNos(out) == SeqNos(rs)
    ensures |out| <= |rs|
    decreases |rs|
  {
    if |rs| == 0 then []
    else
      var init := rs[..|rs| - 1];
      assert rs == init + [rs[|rs| - 1]];
      SeqNosSnoc(init, rs[|rs| - 1]);
      MapSet(BuildMap(init), rs[|rs| - 1])
  }

  /** Position of the first record with sequence number `key`. */
  function FirstIndex(rs: seq<StreamRecord>, key: string): (i: nat)
    requires key in SeqNos(rs)
    ensures i < |rs| && rs[i].seqNo == key
    ensures forall j :: 0 <= j < i ==> rs[j].seqNo != key
    decreases |rs|
  {
    var init := rs[..|rs| - 1];
    assert rs == init + [rs[|rs| - 1]];
    SeqNosSnoc(init, rs[|rs| - 1]);
    if key in SeqNos(init) then FirstIndex(init, key) else |rs| - 1
  }

  /** The last record with sequence number `key`. */
  function LastOf(rs: seq<StreamRecord>, key: string): (r: StreamRecord)
    requires key in SeqNos(rs)
    ensures r in rs && r.seqNo == key
    decreases |rs|
  {
    var init := rs[..|rs| - 1];
    assert rs == init + [rs[|rs| - 1]];
    SeqNosSnoc(init, rs[|rs| - 1]);
    if rs[|rs| - 1].seqNo == key then rs[|rs| - 1] else LastOf(init, key)
  }

  /** Each key of the Map carries the value of its LAST occurrence. */
  lemma {:induction false} BuildMapKeepsLastValue(rs: seq<StreamRecord>)
    ensures forall k :: 0 <= k < |BuildMap(rs)| ==> BuildMap(rs)[k].seqNo in SeqNos(rs)
    ensures forall k :: 0 <= k < |BuildMap(rs)| ==> BuildMap(rs)[k] == LastOf(rs, BuildMap(rs)[k].seqNo)
    decreases |rs|
  {
    assert forall k :: 0 <= k < |BuildMap(rs)| ==> BuildMap(rs)[k].seqNo in SeqNos(BuildMap(rs));
    if |rs| > 0 {
      var init, x := rs[..|rs| - 1], rs[|rs| - 1];
      assert rs == init + [x];
      SeqNosSnoc(init, x);
      BuildMapKeepsLastValue(init);
      var before := BuildMap(init);
      var out := BuildMap(rs);
      assert out == MapSet(before, x);
      forall k | 0 <= k < |out|
        ensures out[k] == LastOf(rs, out[k].seqNo)
      {
        if k < |before| && before[k].seqNo != x.seqNo {
          assert out[k] == before[k];
          assert LastOf(rs, out[k].seqNo) == LastOf(init, out[k].seqNo);
        }
      }
    }
  }

  lemma FirstIndexSnoc(init: seq<StreamRecord>, x: StreamRecord, key: string)
    requires key in SeqNos(init) || key == x.seqNo
    ensures key in SeqNos(init + [x])
    ensures key in SeqNos(init) ==> FirstIndex(init + [x], key) == FirstIndex(init, key)
    ensures key !in SeqNos(init) ==> FirstIndex(init + [x], key) == |init|
  {
    SeqNosSnoc(init, x);
    assert (init + [x])[..|init|] == init;
  }

  /** The keys of the Map are in the order of their FIRST occurrence. */
  lemma {:induction false} BuildMapKeepsFirstPosition(rs: seq<StreamRecord>)
    ensures forall k :: 0 <= k < |BuildMap(rs)| ==> BuildMap(rs)[k].seqNo in SeqNos(rs)
    ensures forall k1, k2 :: 0 <= k1 < k2 < |BuildMap(rs)| ==>
              FirstIndex(rs, BuildMap(rs)[k1].seqNo) < FirstIndex(rs, BuildMap(rs)[k2].seqNo)
    decreases |rs|
  {
    var out := BuildMap(rs);
    assert forall k :: 0 <= k < |out| ==> out[k].seqNo in SeqNos(out);
    if |rs| > 0 {
      var init, x := rs[..|rs| - 1], rs[|rs| - 1];
      assert rs == init + [x];
      BuildMapKeepsFirstPosition(init);
      FirstPositionSnoc(init, x);
    }
  }

  /** One more `map.set` keeps the keys in first-occurrence order. */
  lemma FirstPositionSnoc(init: seq<StreamRecord>, x: StreamRecord)
    requires forall k :: 0 <= k < |BuildMap(init)| ==> BuildMap(init)[k].seqNo in SeqNos(init)
    requires forall k1, k2 :: 0 <= k1 < k2 < |BuildMap(init)| ==>
               FirstIndex(init, BuildMap(init)[k1].seqNo) < FirstIndex(init, BuildMap(init)[k2].seqNo)
    ensures forall k :: 0 <= k < |BuildMap(init + [x])| ==> BuildMap(init + [x])[k].seqNo in SeqNos(init + [x])
    ensures forall k1, k2 :: 0 <= k1 < k2 < |BuildMap(init + [x])| ==>
              FirstIndex(init + [x], BuildMap(init + [x])[k1].seqNo) < FirstIndex(init + [x], BuildMap(init + [x])[k2].seqNo)
  {
    var rs := init + [x];
    var before := BuildMap(init);
    assert rs[..|rs| - 1] == init;
    var out := BuildMap(rs);
    assert out == MapSet(before, x);
    assert forall k :: 0 <= k < |out| ==> out[k].seqNo in SeqNos(out);
    forall k1, k2 | 0 <= k1 < k2 < |out|
      ensures FirstIndex(rs, out[k1].seqNo) < FirstIndex(rs, out[k2].seqNo)
    {
      FirstPositionStep(init, x, before, k1, k2);
    }
  }

  lemma FirstPositionStep(init: seq<StreamRecord>, x: StreamRecord, before: seq<StreamRecord>, k1: nat, k2: nat)
    requires before == BuildMap(init)
    requires forall k :: 0 <= k < |before| ==> before[k].seqNo in SeqNos(init)
    requires forall k1, k2 :: 0 <= k1 < k2 < |before| ==>
               FirstIndex(init, before[k1].seqNo) < FirstIndex(init, before[k2].seqNo)
    requires k1 < k2 < |MapSet(before, x)|
    ensures MapSet(before, x)[k1].seqNo in SeqNos(init + [x])
    ensures MapSet(before, x)[k2].seqNo in SeqNos(init + [x])
    ensures FirstIndex(init + [x], MapSet(before, x)[k1].seqNo) < FirstIndex(init + [x], MapSet(before, x)[k2].seqNo)
  {
    var out := MapSet(before, x);
    var a, b := out[k1].seqNo, out[k2].seqNo;
    assert a == before[k1].seqNo;
    FirstIndexSnoc(init, x, a);
    if k2 < |before| {
      assert b == before[k2].seqNo;
      FirstIndexSnoc(init, x, b);
    } else {
      assert b == x.seqNo && b !in SeqNos(init);
      FirstIndexSnoc(init, x, b);
    }
  }

  /** In `mapped + held`, a key of `mapped` first occurs inside `mapped`, and a key that
      only `held` has first occurs after it. */
  lemma {:induction false} FirstIndexConcat(a: seq<StreamRecord>, b: seq<StreamRecord>, key: string)
    requires key in SeqNos(a + b)
    ensures FirstIndex(a + b, key) < |a| <==> key in SeqNos(a)
  {
    var i := FirstIndex(a + b, key);
    if key in SeqNos(a) {
      var j :| 0 <= j < |a| && a[j].seqNo == key;
      assert (a + b)[j].seqNo == key;
    }
  }

  /** The last record of a key after one more record: the new one if it carries the
      key, the earlier last one otherwise. */
  lemma LastOfSnoc(init: seq<StreamRecord>, x: StreamRecord, key: string)
    requires key in SeqNos(init + [x])
    ensures x.seqNo != key ==> key in SeqNos(init) && LastOf(init + [x], key) == LastOf(init, key)
    ensures x.seqNo == key ==> LastOf(init + [x], key) == x
  {
    var rs := init + [x];
    assert rs[..|rs| - 1] == init;
    SeqNosSnoc(init, x);
  }

  /** In `mapped + held`, the last record of a key that `held` has lies in `held`. */
  lemma {:induction false} LastOfConcat(a: seq<StreamRecord>, b: seq<StreamRecord>, key: string)
    requires key in SeqNos(b)
    ensures key in SeqNos(a + b)
    ensures LastOf(a + b, key) == LastOf(b, key)
    decreases |b|
  {
    SeqNosConcat(a, b);
    var init, x := b[..|b| - 1], b[|b| - 1];
    assert b == init + [x];
    assert a + b == (a + init) + [x];
    LastOfSnoc(init, x, key);
    LastOfSnoc(a + init, x, key);
    if x.seqNo != key {
      LastOfConcat(a, init, key);
    }
  }

  // ---------------------------------------------------------------- the history fetch

  /** The record a store item is shown as: an 8-character short id and the full id as
      the sequence number. */
  function Translate(item: StoreItem): (r: StreamRecord)
    requires item.id.Some?
    ensures r.seqNo == item.id.value
    ensures r.id == Text.Prefix(item.id.value, ShortIdLength)
    ensures |r.id| <= ShortIdLength && r.id <= r.seqNo
    ensures r.data == item.rawData && r.arrival == item.timestamp
  {
    StreamRecord(Text.Prefix(item.id.value, ShortIdLength), item.id.value, item.rawData, item.timestamp)
  }

  predicate AllHaveIds(items: seq<StoreItem>) {
    forall i :: 0 <= i < |items| ==> items[i].id.Some?
  }

  function TranslateAll(items: seq<StoreItem>): (rs: seq<StreamRecord>)
    requires AllHaveIds(items)
    ensures |rs| == |items|
    ensures forall i :: 0 <= i < |items| ==> rs[i] == Translate(items[i])
  {
    seq(|items|, i requires 0 <= i < |items| => Translate(items[i]))
  }

  /** The state update of `fetchKinesisHistory`: fetched records ahead of the held ones,
      de-duplicated by sequence number, first 100 kept. */
  function Merge(held: seq<StreamRecord>, fetched: seq<StreamRecord>): seq<StreamRecord> {
    KeepFirst(BuildMap(fetched + held), StreamCapacity)
  }

  /** `fetchKinesisHistory` as a whole: a failed request, a non-array body or an item
      without a string id leaves the held records as they are. */
  function OnFetch(held: seq<StreamRecord>, result: FetchResult): (out: seq<StreamRecord>)
    ensures !(result.Items? && AllHaveIds(result.items)) ==> out == held
    ensures result.Items? && AllHaveIds(result.items) ==> out == Merge(held, TranslateAll(result.items))
  {
    match result
    case Items(items) => if AllHaveIds(items) then Merge(held, TranslateAll(items)) else held
    case _ => held
  }

  /** What the merge guarantees: at most 100 records with pairwise distinct sequence
      numbers, none fabricated; fetched keys come ahead of keys only the old list had;
      on a clash the record already held wins (its value is kept, at the fetched
      record's position); when nothing is cut off, every key of either list is kept, and
      when something is, exactly the 100 keys seen first in fetched-then-held order survive. */
  lemma MergeSpec(held: seq<StreamRecord>, fetched: seq<StreamRecord>)
    ensures |Merge(held, fetched)| <= StreamCapacity
    ensures DistinctSeqNos(Merge(held, fetched))
    ensures forall k :: 0 <= k < |Merge(held, fetched)| ==> Merge(held, fetched)[k] in fetched + held
    ensures forall k1, k2 :: 0 <= k1 < k2 < |Merge(held, fetched)| && Merge(held, fetched)[k2].seqNo in SeqNos(fetched)
              ==> Merge(held, fetched)[k1].seqNo in SeqNos(fetched)
    ensures forall k :: 0 <= k < |Merge(held, fetched)| && Merge(held, fetched)[k].seqNo in SeqNos(held)
              ==> Merge(held, fetched)[k] == LastOf(held, Merge(held, fetched)[k].seqNo)
    ensures |BuildMap(fetched + held)| <= StreamCapacity ==> SeqNos(Merge(held, fetched)) == SeqNos(fetched) + SeqNos(held)
    ensures Merge(held, fetched) <= BuildMap(fetched + held)
    ensures |BuildMap(fetched + held)| > StreamCapacity ==> |Merge(held, fetched)| == StreamCapacity
  {
    var all := fetched + held;
    var u := BuildMap(all);
    var out := Merge(held, fetched);
    BuildMapKeepsLastValue(all);
    BuildMapKeepsFirstPosition(all);
    SeqNosConcat(fetched, held);
    assert forall k :: 0 <= k < |out| ==> out[k] == u[k];
    forall k | 0 <= k < |out|
      ensures out[k] in all
    {
      assert u[k] == LastOf(all, u[k].seqNo);
    }
    forall k1, k2 | 0 <= k1 < k2 < |out| && out[k2].seqNo in SeqNos(fetched)
      ensures out[k1].seqNo in SeqNos(fetched)
    {
      FirstIndexConcat(fetched, held, u[k1].seqNo);
      FirstIndexConcat(fetched, held, u[k2].seqNo);
    }
    forall k | 0 <= k < |out| && out[k].seqNo in SeqNos(held)
      ensures out[k] == LastOf(held, out[k].seqNo)
    {
      LastOfConcat(fetched, held, u[k].seqNo);
    }
  }
}

=== FILE: text.dfy ===
/** Small string helpers shared by the dashboards: JavaScript `substring(0, n)`,
    ASCII case mapping and `String.prototype.includes`. */
module Text {

  /** `s.substring(0, n)`: the first `n` characters, or all of `s` when it is shorter. */
  function Prefix(s: string, n: nat): (r: string)
    ensures |r| == if |s| < n then |s| else n
    ensures r <= s
  {
    if |s| <= n then s else s[..n]
  }

  /** Upper case of one character, for the ASCII letters: a small letter moves 32 code
      points up to its capital, anything else is kept, and no small letter is left. */
  function UpperChar(c: char): (r: char)
    ensures 'a' <= c <= 'z' ==> r as int == c as int - 32
    ensures !('a' <= c <= 'z') ==> r == c
    ensures !('a' <= r <= 'z')
  {
    if 'a' <= c <= 'z' then (c as int - 'a' as int + 'A' as int) as char else c
  }

  /** Lower case of one character, for the ASCII letters: a capital moves 32 code
      points down to its small letter, anything else is kept, and no capital is left. */
  function LowerChar(c: char): (r: char)
    ensures 'A' <= c <= 'Z' ==> r as int == c as int + 32
    ensures !('A' <= c <= 'Z') ==> r == c
    ensures !('A' <= r <= 'Z')
  {
    if 'A' <= c <= 'Z' then (c as int - 'A' as int + 'a' as int) as char else c
  }

  /** `s.toUpperCase()` restricted to ASCII letters. */
  function Upper(s: string): (r: string)
    ensures |r| == |s|
    ensures forall i :: 0 <= i < |s| ==> r[i] == UpperChar(s[i])
  {
    seq(|s|, i requires 0 <= i < |s| => UpperChar(s[i]))
  }

  /** Upper-casing twice is upper-casing once. */
  lemma UpperIdempotent(s: string)
    ensures Upper(Upper(s)) == Upper(s)
  {
  }

  /** `s.toLowerCase()` restricted to ASCII letters. */
  function Lower(s: string): (r: string)
    ensures |r| == |s|
    ensures forall i :: 0 <= i < |s| ==> r[i] == LowerChar(s[i])
  {
    seq(|s|, i requires 0 <= i < |s| => LowerChar(s[i]))
  }

  /** Lower-casing twice is lower-casing once. */
  lemma LowerIdempotent(s: string)
    ensures Lower(Lower(s)) == Lower(s)
  {
  }

  /** `w` occurs in `s` starting at position `i`. */
  predicate OccursAt(s: string, w: string, i: int) {
    0 <= i <= |s| - |w| && s[i..i + |w|] == w
  }

  /** `s.includes(w)`: `w` occurs in `s` at some position. */
  predicate Contains(s: string, w: string) {
    exists i :: 0 <= i <= |s| && OccursAt(s, w, i)
  }

  /** True when `s` contains at least one of the words. */
  predicate ContainsAny(s: string, words: seq<string>) {
    exists k :: 0 <= k < |words| && Contains(s, words[k])
  }

  /** Looking for any word of two lists is looking in either list. */
  lemma ContainsAnyConcat(s: string, a: seq<string>, b: seq<string>)
    ensures ContainsAny(s, a + b) <==> ContainsAny(s, a) || ContainsAny(s, b)
  {
    if ContainsAny(s, a + b) {
      var k :| 0 <= k < |a + b| && Contains(s, (a + b)[k]);
      if k >= |a| {
        assert (a + b)[k] == b[k - |a|];
      }
    }
    if ContainsAny(s, a) {
      var k :| 0 <= k < |a| && Contains(s, a[k]);
      assert (a + b)[k] == a[k];
      assert Contains(s, (a + b)[k]);
    }
    if ContainsAny(s, b) {
      var k :| 0 <= k < |b| && Contains(s, b[k]);
      assert (a + b)[|a| + k] == b[k];
      assert Contains(s, (a + b)[|a| + k]);
    }
  }
}

=== FILE: window.dfy ===
/** The bounded lists the dashboards keep: JavaScript's `slice(0, n)` and `slice(-n)`
    applied after a push or an unshift, and `Array.prototype.filter`. */
module Window {

  function Min(a: int, b: int): int {
    if a <= b then a else b
  }

  /** `s.slice(0, n)`: the first `n` elements, or all of `s` when it is shorter. */
  function KeepFirst<T>(s: seq<T>, n: nat): (r: seq<T>)
    ensures |r| == Min(|s|, n)
    ensures r <= s
  {
    if |s| <= n then s else s[..n]
  }

  /** `s.slice(-n)` for `n > 0`: the last `n` elements, or all of `s` when it is shorter. */
  function KeepLast<T>(s: seq<T>, n: nat): (r: seq<T>)
    ensures |r| == Min(|s|, n)
    ensures forall i :: 0 <= i < |r| ==> r[i] == s[|s| - |r| + i]
  {
    if |s| <= n then s else s[|s| - n..]
  }

  /** `[...prev, x].slice(-n)`: append `x` and keep the `n` most recent entries. */
  function Append<T>(prev: seq<T>, x: T, n: nat): (r: seq<T>)
    requires n > 0
    ensures |r| == Min(|prev| + 1, n)
    ensures r[|r| - 1] == x
    ensures r[..|r| - 1] == KeepLast(prev, n - 1)
  {
    var r := KeepLast(prev + [x], n);
    assert r[..|r| - 1] == KeepLast(prev, n - 1);
    r
  }

  /** `[x, ...prev].slice(0, n)`: put `x` in front and keep the first `n` entries. */
  function Prepend<T>(x: T, prev: seq<T>, n: nat): (r: seq<T>)
    requires n > 0
    ensures |r| == Min(|prev| + 1, n)
    ensures r[0] == x
    ensures r[1..] == KeepFirst(prev, n - 1)
  {
    KeepFirst([x] + prev, n)
  }

  function Reverse<T>(s: seq<T>): (r: seq<T>)
    ensures |r| == |s|
    ensures forall i :: 0 <= i < |s| ==> r[i] == s[|s| - 1 - i]
  {
    if |s| == 0 then [] else Reverse(s[1..]) + [s[0]]
  }

  /** A run of appends, one per element of `xs`, in order. */
  function AppendAll<T>(prev: seq<T>, xs: seq<T>, n: nat): seq<T>
    requires n > 0
    decreases |xs|
  {
    if |xs| == 0 then prev else AppendAll(Append(prev, xs[0], n), xs[1..], n)
  }

  /** A run of prepends, one per element of `xs`, in order. */
  function PrependAll<T>(prev: seq<T>, xs: seq<T>, n: nat): seq<T>
    requires n > 0
    decreases |xs|
  {
    if |xs| == 0 then prev else PrependAll(Prepend(xs[0], prev, n), xs[1..], n)
  }

  lemma KeepLastTwice<T>(a: seq<T>, b: seq<T>, n: nat)
    ensures KeepLast(KeepLast(a, n) + b, n) == KeepLast(a + b, n)
  {
    var lhs := KeepLast(KeepLast(a, n) + b, n);
    var rhs := KeepLast(a + b, n);
    assert |lhs| == |rhs|;
    forall i | 0 <= i < |lhs|
      ensures lhs[i] == rhs[i]
    {
    }
  }

  lemma KeepFirstTwice<T>(b: seq<T>, a: seq<T>, n: nat)
    ensures KeepFirst(b + KeepFirst(a, n), n) == KeepFirst(b + a, n)
  {
    var lhs := KeepFirst(b + KeepFirst(a, n), n);
    var rhs := KeepFirst(b + a, n);
    assert |lhs| == |rhs|;
    forall i | 0 <= i < |lhs|
      ensures lhs[i] == rhs[i]
    {
      if i >= |b| {
        assert lhs[i] == KeepFirst(a, n)[i - |b|];
      }
    }
  }

  /** Bounded memory for append-side buffers: after any run of appends the list holds
      exactly the `n` most recent entries of everything ever appended, oldest first. */
  lemma {:induction false} AppendAllKeepsMostRecent<T>(prev: seq<T>, xs: seq<T>, n: nat)
    requires n > 0
    requires |prev| <= n
    ensures AppendAll(prev, xs, n) == KeepLast(prev + xs, n)
    decreases |xs|
  {
    if |xs| == 0 {
      assert prev + xs == prev;
    } else {
      var a := prev + [xs[0]];
      var next := Append(prev, xs[0], n);
      assert next == KeepLast(a, n);
      assert |next| <= n;
      calc {
        AppendAll(prev, xs, n);
        AppendAll(next, xs[1..], n);
        { AppendAllKeepsMostRecent(next, xs[1..], n); }
        KeepLast(KeepLast(a, n) + xs[1..], n);
        { KeepLastTwice(a, xs[1..], n); }
        KeepLast(a + xs[1..], n);
        { assert a + xs[1..] == prev + xs; }
        KeepLast(prev + xs, n);
      }
    }
  }

  /** Bounded memory for prepend-side buffers: after any run of prepends the list holds
      the `n` newest entries, newest first, followed by what is left of the old list. */
  lemma {:induction false} PrependAllKeepsNewest<T>(prev: seq<T>, xs: seq<T>, n: nat)
    requires n > 0
    requires |prev| <= n
    ensures PrependAll(prev, xs, n) == KeepFirst(Reverse(xs) + prev, n)
    decreases |xs|
  {
    if |xs| == 0 {
      assert Reverse(xs) + prev == prev;
    } else {
      var next := Prepend(xs[0], prev, n);
      var front := Reverse(xs[1..]);
      assert next == KeepFirst([xs[0]] + prev, n);
      assert |next| <= n;
      calc {
        PrependAll(prev, xs, n);
        PrependAll(next, xs[1..], n);
        { PrependAllKeepsNewest(next, xs[1..], n); }
        KeepFirst(front + next, n);
        { KeepFirstTwice(front, [xs[0]] + prev, n); }
        KeepFirst(front + ([xs[0]] + prev), n);
        { assert Reverse(xs) == front + [xs[0]];
          assert front + ([xs[0]] + prev) == Reverse(xs) + prev; }
        KeepFirst(Reverse(xs) + prev, n);
      }
    }
  }

  /** `s.filter(keep)`: the elements satisfying `keep`, in their original order. */
  function Filter<T>(s: seq<T>, keep: T -> bool): (r: seq<T>)
    ensures |r| <= |s|
    ensures forall i :: 0 <= i < |r| ==> r[i] in s && keep(r[i])
    ensures forall i :: 0 <= i < |s| && keep(s[i]) ==> s[i] in r
  {
    if |s| == 0 then []
    else if keep(s[0]) then [s[0]] + Filter(s[1..], keep)
    else Filter(s[1..], keep)
  }

  /** Filtering preserves order: it distributes over concatenation. */
  lemma {:induction false} FilterConcat<T>(a: seq<T>, b: seq<T>, keep: T -> bool)
    ensures Filter(a + b, keep) == Filter(a, keep) + Filter(b, keep)
  {
    if |a| == 0 {
      assert a + b == b;
    } else {
      assert (a + b)[1..] == a[1..] + b;
      FilterConcat(a[1..], b, keep);
    }
  }
}
